=== FILE: README.md ===
# Investment finance calculator — verified model

A Dafny model of the computational core of an investment finance calculator.
The model has three parts:

- The `FinancialCalculations` helpers (finance_utils.py):
  - net present value, internal rate of return and payback period;
  - discounted cash flow valuation, WACC and CAPM;
  - present and future value;
  - bond pricing with current yield and Macaulay duration, and yield to maturity.
- The discrete part of `ScientificCalculator` (scientific_calc.py):
  - the factorial and the domain guards of the roots and logarithms;
  - the memory register and the angle mode;
  - the expression preparation and the input validator.
- The basic keypad of `FinanceCalculator` (main.py): `button_click` and `calculate`.

Numbers are exact `real`s. A Python exception becomes a `Failure` of the
`Result` type in `Wrappers`, which carries `ZeroDivisionError`, `IndexError`,
`OverflowError` or `ValueError(message)`. Python's `x ** n` with an integer `n` is `RealMath.IntPow`:
`0.0 ** 0` is 1, and a zero base with a negative exponent raises.

The two Newton-Raphson searches (IRR and yield to maturity) share the driver
`Newton.Find`. It makes at most 100 iterations. Each search supplies a step
function that either accepts the current point, gives up, proposes the next
point, or raises.

Files:

| file | module | content |
|---|---|---|
| wrappers.dfy | Wrappers | `Option`, `Result`, `Error`, checked division |
| realmath.dfy | RealMath | powers, `IntPow`, discounting, `Sum` |
| newton.dfy | Newton | the bounded Newton iteration and its lemmas |
| cashflows.dfy | Cashflows | NPV, its derivative, IRR, payback period |
| valuation.dfy | Valuation | DCF, WACC, CAPM, present and future value |
| bonds.dfy | Bonds | bond price, current yield, duration |
| ytm.dfy | YieldToMaturity | yield to maturity |
| scientific.dfy | Scientific | factorial, guards, memory, angle mode |
| expressions.dfy | Expressions | `_prepare_expression`, `validate_scientific_input` |
| keypad.dfy | Keypad | `button_click`, `calculate` |

## Model

| member | source | states |
|---|---|---|
| RealMath.IntPow | finance_utils.py:188 | `x ** n` raises ZeroDivisionError exactly for a zero base and a negative exponent. A non-negative exponent gives the power. A negative one gives the reciprocal of the positive power. The result is zero only for a zero base and a positive exponent. |
| Cashflows.Npv | finance_utils.py:12-23 | NPV raises ZeroDivisionError exactly when the rate is -1 and there are two or more flows. The first flow is divided by `0.0 ** 0`, which is 1. Otherwise NPV is the sum of each flow discounted by its index. |
| Cashflows.NpvAtZeroRate | finance_utils.py:23 | At rate 0 the NPV is the plain sum of the flows. |
| Cashflows.NpvOfSingleFlow | finance_utils.py:23 | A lone flow at time 0 is its own NPV at every rate, including -1. |
| Cashflows.NpvHorner | finance_utils.py:23 | NPV of `c` followed by `rest` is `c + NPV(rest)/(1+rate)`. Every later flow is discounted one period further. |
| Cashflows.NpvDerivative | finance_utils.py:37-38 | The derivative raises exactly when the rate is -1 and there is at least one flow. Otherwise it is the sum of `-i*cf/(1+rate)^(i+1)`. |
| Cashflows.DerivativeIsDiscountedWeightedNpv | finance_utils.py:37-38 | The derivative equals minus the NPV of the time-weighted flows `i*cf`, divided by `1+rate`. This is the derivative of NPV with respect to the rate. |
| Cashflows.IrrStep | finance_utils.py:40-50 | One IRR iteration converges iff \|NPV\| < 1e-6. It gives up iff \|NPV\| ≥ 1e-6 while \|derivative\| < 1e-10. Otherwise the next rate is `rate - NPV/derivative`. It raises only ZeroDivisionError, and only at rate -1. |
| Cashflows.Irr | finance_utils.py:26-52 | A returned rate has \|NPV\| < 1e-6. The only exception that can escape is ZeroDivisionError. |
| Cashflows.IrrFoundIff | finance_utils.py:40-52 | IRR returns `y` iff `y` is one of the first 100 Newton iterates from the guess and \|NPV(y)\| < 1e-6. |
| Cashflows.IrrStallsOnFlatDerivative | finance_utils.py:46-52 | If an iterate with \|NPV\| ≥ 1e-6 has a derivative below 1e-10, the loop breaks and IRR returns None. |
| Cashflows.IrrAtMinusOneRaises | finance_utils.py:40-42 | A guess of -1 raises ZeroDivisionError when there are two or more flows, or one flow of size at least 1e-6. |
| Cashflows.IrrRaisesAtReachedMinusOne | finance_utils.py:40-50 | Under the same conditions on the flows, an iterate of -1 reached within 100 passes makes the search raise ZeroDivisionError. |
| Cashflows.IrrStepsOntoMinusOne | finance_utils.py:40-50 | For flows [-2, 1] from guess 0, the first step lands exactly on -1 and the search raises ZeroDivisionError. |
| Cashflows.IrrOfNoCashflows | finance_utils.py:40-44 | With no flows the NPV is 0, so the guess itself is returned. |
| Cashflows.IrrFromDefaultGuess | finance_utils.py:26-52 | `irr(cashflows)` with the default guess 0.1, as the NPV/IRR form calls it. A returned rate has \|NPV\| < 1e-6. Only ZeroDivisionError escapes. No flows return 0.1. |
| Cashflows.IrrExhausted | finance_utils.py:41-52 | A search still moving after 100 updates returns None. |
| Cashflows.Payback | finance_utils.py:55-78 | A payback period exists only for two or more flows starting with a negative one. It lies in (0, n-1]. |
| Cashflows.PaybackAtFirstRecovery | finance_utils.py:68-76 | At the first year `i` whose running total is ≥ 0, the result is `i - 1 + \|previous total\| / cf_i`. It is 1 when `i` is 1, and it lies in (i-1, i]. |
| Cashflows.PaybackNoneIff | finance_utils.py:65-78 | None iff there are no flows, or the first flow is non-negative, or the running total stays negative. |
| Cashflows.PaybackExample | finance_utils.py:65-78 | Examples: [-1000, 400, 400, 400] pays back in 2.5 and [-1000, 1000] in 1. A non-negative start, or a total that never recovers, gives None. |
| Newton.Find | finance_utils.py:40-52 | A found point is one the step accepts. A raised error is one some step raises. Zero iterations find nothing. |
| Newton.FoundIffConvergedTrial | finance_utils.py:40-52 | The search finds `y` iff `y` is the k-th iterate for some k below the iteration bound and the step accepts it. |
| Newton.RaisedIffRaisingTrial | finance_utils.py:40-52 | The search raises `e` iff the k-th iterate, for some k below the iteration bound, exists and its step raises `e`. |
| Newton.GiveUpMeansNotFound | finance_utils.py:46-52 | A break in the loop makes the search return None. |
| Newton.ExhaustedMeansNotFound | finance_utils.py:41-52 | If all iterations pass without acceptance, the search returns None. |
| Newton.FoundKeepsInvariant | finance_utils.py:304-308 | If every proposed point satisfies a property, a found point is the start point or satisfies it. |
| Valuation.Dcf | finance_utils.py:81-121 | No flows raise IndexError (`free_cashflows[-1]`). ZeroDivisionError occurs iff the rate is -1 or the rate equals the growth rate. The breakdown has one entry per flow. The PV of the flows is its sum. Enterprise value is that PV plus the PV of the terminal value. |
| Valuation.DcfDefaultTerminalYear | finance_utils.py:99-100 | A missing terminal year means the number of flows. |
| Valuation.DcfBreakdownEntry | finance_utils.py:103-106 | Breakdown entry `i`, compounded over `i+1` periods, gives flow `i` back. |
| Valuation.DcfPvIsShiftedNpv | finance_utils.py:103-116 | The PV of the projected flows is the NPV of the flows shifted one period out. |
| Valuation.DcfGordonGrowth | finance_utils.py:109-110 | Terminal value × (rate − growth) = last flow × (1 + growth). |
| Valuation.DcfTerminalDiscount | finance_utils.py:111 | For a non-negative terminal year, the PV of the terminal value compounded over that year is the terminal value. For a negative terminal year, the PV is the terminal value compounded over the year's magnitude. |
| Valuation.CapitalWeightsSumToOne | finance_utils.py:144-146 | The equity and debt weights add up to 1. |
| Valuation.Wacc | finance_utils.py:124-149 | WACC raises ZeroDivisionError exactly when equity plus debt is 0. |
| Valuation.WaccIsWeightedAverage | finance_utils.py:144-149 | For nonzero total capital, WACC × (equity + debt) = equity × cost of equity + debt × cost of debt × (1 − tax). |
| Valuation.WaccIsBetweenCosts | finance_utils.py:144-149 | With non-negative capital, WACC lies between the cost of equity and the after-tax cost of debt. |
| Valuation.WaccExample | finance_utils.py:144-149 | Costs 12% and 6%, tax 25%, capital 800/200 give 10.5%. |
| Valuation.Capm | finance_utils.py:152-164 | Beta 0 gives the risk-free rate and beta 1 the market return. |
| Valuation.CapmIsBetweenRates | finance_utils.py:164 | A beta in [0, 1] gives a rate between the risk-free rate and the market return. |
| Valuation.CapmMonotoneInBeta | finance_utils.py:164 | With a positive market premium, a higher beta gives a strictly higher cost of equity. |
| Valuation.CapmIsLinear | finance_utils.py:164 | The difference between two betas' costs of equity is their beta difference times the market premium. |
| Valuation.PresentValue | finance_utils.py:186-188 | Raises exactly when the rate is -1 and the periods are nonzero. Otherwise, for n ≥ 0 the result compounded over n periods is the future value; for n < 0 it is the future value times (1+rate)^-n. |
| Valuation.FutureValue | finance_utils.py:191-193 | Raises exactly when the rate is -1 and the periods are negative. Otherwise, for n ≥ 0 it is pv × (1+rate)^n; for n < 0, the result times (1+rate)^-n is pv. |
| Valuation.FutureOfPresentValue | finance_utils.py:186-193 | The future value of a present value gives the original amount back. |
| Valuation.PresentOfFutureValue | finance_utils.py:186-193 | The present value of a future value gives the original amount back. |
| Valuation.PresentValueIsNpvOfLastFlow | finance_utils.py:186-188 | For n ≥ 0, the present value equals the NPV of n empty periods followed by the sum, including raising in the same cases. |
| Valuation.PresentValueExample | finance_utils.py:186-193 | 1100 one period out at 10% is worth 1000 now, and back. |
| Bonds.CouponsValue | finance_utils.py:220-224 | The annuity raises exactly when the period yield is -1 and there are periods left. At zero yield it is coupon × periods. |
| Bonds.FaceValue | finance_utils.py:227 | The discounted face value raises exactly when the period yield is -1 and the periods are nonzero. |
| Bonds.BondPrice | finance_utils.py:196-256 | Only ZeroDivisionError escapes, always for zero payments per year or a period yield of -1 with periods. On success: price = PV of coupons + PV of face, the price is nonzero, PV of coupons and PV of face are the closed-form annuity and the discounted face value, current yield × price = annual coupon, annual coupon = face × coupon rate, and duration × price = the time-weighted present value of the flows the duration loop adds up. |
| Bonds.ZeroYieldCoupons | finance_utils.py:221-222 | At zero yield the coupons are worth coupon × periods. |
| Bonds.CouponsValueIsSum | finance_utils.py:220-224 | The closed-form annuity equals the sum of every coupon discounted by its own period. |
| Bonds.BondPriceIsPresentValueOfFlows | finance_utils.py:216-244 | The closed-form price equals the sum of the discounted cash flows of the duration loop. |
| Bonds.ParBond | finance_utils.py:216-230 | A bond whose coupon rate equals its yield is priced at face value. |
| Bonds.DurationBounds | finance_utils.py:235-247 | For a positive face, a non-negative coupon and a growth factor above 0, pricing succeeds. Duration then lies between the first payment time and maturity. |
| Bonds.ZeroCouponDurationIsMaturity | finance_utils.py:235-247 | A zero-coupon bond with a positive face and a growth factor above 0 has a duration equal to its maturity in years. |
| YieldToMaturity.PriceGap | finance_utils.py:283-287 | The gap raises exactly when pricing at that yield raises. Gap + market price = model price. |
| YieldToMaturity.Slope | finance_utils.py:289-292 | The central difference raises iff one of its two points does, and carries that point's error. Slope × 2h = gap(y+h) − gap(y−h). |
| YieldToMaturity.YtmStep | finance_utils.py:294-308 | A step converges iff \|gap\| < 0.01. It gives up iff the slope is below 1e-10 or the next yield leaves [-0.5, 1]. Otherwise the next yield is `y − gap/slope`, within [-0.5, 1]. It raises only what pricing raises. |
| YieldToMaturity.Ytm | finance_utils.py:261-310 | A returned yield prices the bond within 0.01 of the market price. |
| YieldToMaturity.YtmFoundIff | finance_utils.py:293-310 | YTM returns `y` iff `y` is one of the first 100 trial yields and prices the bond within 0.01 of the market. |
| YieldToMaturity.YtmRaisesDivision | finance_utils.py:283-292 | The only exception that can escape is ZeroDivisionError. |
| YieldToMaturity.YtmFoundInRange | finance_utils.py:304-308 | A returned yield is the guess or lies in [-0.5, 1]. |
| YieldToMaturity.YtmAcceptsCloseGuess | finance_utils.py:294-298 | A guess already within 0.01 is returned as is. |
| YieldToMaturity.YtmGivesUpOutOfRange | finance_utils.py:304-308 | If any trial's Newton update falls below -0.5 or above 1.0, the loop breaks and YTM returns None. |
| YieldToMaturity.YtmStallsOnFlatSlope | finance_utils.py:300-302 | If any trial with a gap ≥ 0.01 has a slope below 1e-10, the loop breaks and YTM returns None. |
| YieldToMaturity.YtmExhausted | finance_utils.py:293-310 | A search still moving after 100 updates returns None. |
| YieldToMaturity.YtmFromDefaultGuess | finance_utils.py:261-310 | With the default guess 0.05: a returned yield is within 0.01 of the market price and is 0.05 or lies in [-0.5, 1]. |
| Scientific.Factorial | scientific_calc.py:22-26 | ValueError with its message iff the argument is negative or not whole. OverflowError iff it is whole and above 2^63 − 1, the largest argument `math.factorial` takes on a platform with a 64-bit C long. Otherwise the factorial of its integer value. |
| Scientific.FactorialOfNatural | scientific_calc.py:24-26 | Every natural number up to 2^63 − 1 (the 64-bit C long bound) is accepted and gets its factorial. |
| Scientific.FactorialOverflows | scientific_calc.py:26 | Every natural number above 2^63 − 1 (the 64-bit C long bound) raises OverflowError. |
| Scientific.FactorialRejectsFraction | scientific_calc.py:24-25 | Every `k + 0.5` is rejected. |
| Scientific.FactorialRecurrence | scientific_calc.py:26 | (k+1)! = (k+1) · k! for accepted arguments. |
| Scientific.FactorialExample | scientific_calc.py:22-26 | 5! = 120. |
| Scientific.SquareRootGuard | scientific_calc.py:36-37 | `square_root` raises iff x < 0. |
| Scientific.NthRootGuard | scientific_calc.py:51-52 | The guard of `nth_root` raises iff n = 0. It does not refuse a negative x; the `math.pow` call after it is not modelled. |
| Scientific.LogArgumentGuard | scientific_calc.py:117-127 | The guard shared by `log10` and `ln` raises iff x ≤ 0, with one message. |
| Scientific.LogGuard | scientific_calc.py:133-134 | `log` raises iff x ≤ 0, base ≤ 0 or base = 1. |
| Scientific.LogWithValidBaseMatchesLog10 | scientific_calc.py:117-134 | For any valid base, `log` accepts exactly the arguments `log10` and `ln` accept. |
| Scientific.MemoryAdd | scientific_calc.py:160-162 | Memory grows by the value; the angle mode and last result are kept. |
| Scientific.MemorySubtract | scientific_calc.py:164-166 | Memory shrinks by the value; everything else is kept. |
| Scientific.MemoryClear | scientific_calc.py:172-174 | Recall gives 0 afterwards; everything else is kept. |
| Scientific.MemoryStore | scientific_calc.py:176-178 | Recall gives the stored value afterwards; everything else is kept. |
| Scientific.StoreThenRecall | scientific_calc.py:168-178 | Recall after a store returns the stored value, whatever was there before. |
| Scientific.AddThenSubtract | scientific_calc.py:160-166 | Adding and subtracting the same value cancel, in both orders. |
| Scientific.ClearIsStoreZero | scientific_calc.py:172-178 | Clearing is storing 0. |
| Scientific.MemoryScenario | test_scientific.py:90-104 | Store 42, add 8, subtract 10, clear: recall gives 42, 50, 40, 0. |
| Scientific.SetAngleMode | scientific_calc.py:181-188 | Succeeds iff the lower-cased name is deg, degrees, rad or radians. It picks degrees exactly for the first two and keeps memory and last result. Any other name raises ValueError. |
| Scientific.GetAngleMode | scientific_calc.py:190-192 | Returns "deg" exactly in degree mode, and otherwise "rad". |
| Scientific.SetThenGetAngleMode | scientific_calc.py:181-192 | Setting the name the getter returns changes nothing. "DEGREES" and "Rad" select their modes. |
| Scientific.SetAngleModeIgnoresCase | scientific_calc.py:183-186 | The setter depends only on the lower-cased name. |
| Scientific.SetAngleModeIdempotent | scientific_calc.py:181-188 | Setting the same mode twice is setting it once. |
| Scientific.MemoryAndAngleModeIndependent | scientific_calc.py:160-188 | The angle-mode setter commutes with storing to and adding to memory. |
| Expressions.PrepareIsCharwise | scientific_calc.py:266-278 | The six successive replacements equal replacing every character on its own: × by `*`, ÷ by `/`, − by `-`, ^ by `**`, π and e by their decimal texts. |
| Expressions.PrepareRemovesSpecials | scientific_calc.py:270-276 | No ×, ÷, −, ^, π or e is left after preparation. |
| Expressions.PrepareIdempotent | scientific_calc.py:266-278 | Preparing a prepared expression changes nothing. |
| Expressions.PrepareLength | scientific_calc.py:266-278 | Each ^ adds one character and each π or e adds sixteen. Nothing else changes the length. |
| Expressions.ExpandAllKeepsCount | scientific_calc.py:266-278 | Every character that is neither rewritten nor produced by a rewrite keeps its count; parentheses are among them. |
| Expressions.PrepareBreaksExp | scientific_calc.py:276 | "exp(1)" becomes "2.718281828459045xp(1)". |
| Expressions.ConstantEAgreesOnLoneEs | scientific_calc.py:276 | When no e touches a letter, the corrected e replacement is the original one. |
| Expressions.ConstantEKeepsWords | scientific_calc.py:276 | When every e belongs to a word, the corrected replacement leaves the text unchanged. |
| Expressions.PrepareWordsKeepsExp | scientific_calc.py:266-278 | The corrected preparation leaves "exp(1)" intact. |
| Expressions.PrepareWordsExpandsConstant | scientific_calc.py:266-278 | The corrected preparation still turns "2*e" into "2*2.718281828459045". |
| Expressions.Validate | scientific_calc.py:343-354 | True iff the counts of `(` and `)` are equal and every character is in the fixed allowed set or is Python whitespace. |
| Expressions.ValidateCountsOnly | scientific_calc.py:346-347 | ")(" passes and "(()" fails: only counts are compared. |
| Expressions.ValidateRejectsTimesSign | scientific_calc.py:350-352 | Any input containing × is rejected. |
| Expressions.ValidateWrap | scientific_calc.py:343-354 | Wrapping in one more pair of parentheses preserves validity, in both directions. |
| Expressions.ValidateConcat | scientific_calc.py:343-354 | Two valid inputs concatenated are valid. |
| Expressions.PrepareKeepsValid | scientific_calc.py:343-354 | Preparing a valid expression gives a valid one. |
| Keypad.Calculate | main.py:189-202 | Raises ValueError("Division by zero") iff dividing by 0. A quotient times the divisor is the dividend. An unknown operator yields the second operand. |
| Keypad.CalculateAddSubtract | main.py:191-194 | − undoes + and + undoes −. |
| Keypad.CalculateMultiplyDivide | main.py:195-200 | ÷ by a nonzero operand undoes ×. |
| Keypad.CalculateDivideMultiply | main.py:195-200 | × by a nonzero operand undoes ÷. |
| Keypad.PressOperator | main.py:130-142 | Afterwards the operator is remembered, reset is set and there is a first operand, which is the parsed display when none was held. The key raises ValueError exactly when a needed parse fails or the chained operation divides by 0. Without a chain the display, input and held operand stay as they were; with one, the display shows the result and the result becomes the first operand. |
| Keypad.PressEquals | main.py:144-155 | With nothing pending nothing changes. With a pending operation whose operand parses and whose calculation succeeds, the rendered result is shown, the operator and operand are cleared and reset is set; nothing else changes. If the parse or the calculation fails, only the display changes, to "Error". |
| Keypad.PressDot | main.py:173-179 | After a result the display becomes "0."; otherwise a point is appended unless one is already there. The display always holds a point afterwards, never gains a second one, and reset is cleared; operator, operand and input are unchanged. |
| Keypad.PressDigit | main.py:181-187 | The key replaces a result or a lone "0", and is appended otherwise. The reset flag is cleared. |
| Keypad.Transform | main.py:157-171 | ± and % replace the display by the rendered negation or hundredth. A display that does not parse is left alone; nothing else changes. |
| Keypad.Press | main.py:118-187 | Only an operator key can raise, and only ValueError. No key except C touches `current_input`. |
| Keypad.ClearResets | main.py:122-128 | C restores the initial state from any state. |
| Keypad.PressKeepsConsistent | main.py:118-187 | Every key press keeps this invariant: an operator is held exactly when a first operand is, and it is one of the four. |
| Keypad.EqualsNeverRaises | main.py:144-155 | = never raises. |
| Keypad.EqualsWithoutOperatorIsNoOp | main.py:144-146 | = with no operator or no operand changes nothing. |
| Keypad.EqualsIsIdempotent | main.py:144-155 | Pressing = twice is pressing it once, provided "Error" does not parse. |
| Keypad.OperatorChangesItsMind | main.py:130-142 | A second operator key in a row only replaces the operator. |
| Keypad.OperatorChains | main.py:133-139 | With an operation pending and a new operand typed, an operator key performs the operation, shows the result and keeps it as the first operand. |
| Keypad.DotKeepsSingleDot | main.py:173-179 | The point key never creates a second decimal point. |
| Keypad.DotIsIdempotent | main.py:173-179 | Pressing the point key twice is pressing it once. |
| Keypad.EqualsAgreesWithChaining | main.py:133-155 | With an operation pending and an operand typed, = and an operator key show the same result. = forgets it, and the operator key keeps it as the next first operand. |
| Keypad.SignTwice | main.py:157-163 | ± twice shows the original number, rendered afresh, provided the codec reads back the rendered negation. |
| Keypad.SignAndPercentOnlyTouchDisplay | main.py:157-171 | ± and % never raise and change only the display. |
| Keypad.TypingAppends | main.py:181-187 | Digits typed into a number being entered are appended to it. |
| Keypad.TypingANumber | main.py:181-187 | On a fresh calculator, a digit string without a leading zero is displayed exactly. |
| Keypad.AdditionScenario | main.py:118-155 | 1 2 + 3 = shows 15 and clears the pending operation. |
| Keypad.DivisionByZeroScenario | main.py:144-155 | 8 ÷ 0 = shows "Error" and keeps 8 ÷ pending. |

## Left out

- `compound_annual_growth_rate`: it needs a fractional real power (`** (1 / periods)`), which exact `real` arithmetic cannot express.
- Python's `math` library functions are not modelled, beyond the guards above. This covers:
  - trigonometric, hyperbolic, exponential and logarithm values;
  - roots and powers, including the `math.pow` call of `nth_root`, which raises for a negative x with some exponents;
  - the angle conversions;
  - the `asin`/`acos` guards.
  They are float wrappers.
- `evaluate_expression`: it hands the prepared text to Python's `eval`. Only the preparation it applies is modelled.
- Floating point behaviour (rounding, overflow, infinities, NaN) is not modelled: every number is an exact real. In particular, `float == 0` tests are exact comparisons.
- Keypad.Codec: `float(text)` and `str(number)` are parameters of the keypad model, not definitions of Python's number syntax. A failed `float` is a `ValueError` with a fixed message, without the offending text.
- The Tk user interface is not modelled:
  - the windows and mode switching;
  - the NPV/IRR, DCF, cash-flow projection, bond and YTM forms of main.py, which read entry fields and call the modelled functions;
  - how Tk reports an exception that escapes `button_click`. The model returns it as a `Failure` with the state unchanged.
- `ScientificButtonLayout` and `format_scientific_result` are display tables and formatting. They are not modelled.
- `last_result` is kept in `Scientific.Calculator` but only `evaluate_expression` changes it, and that is not modelled.
- Cashflows.Payback: the source returns the integer `1` when the investment is recovered in the first year. The model returns the real 1.0.
- Bonds.BondPrice: it states the cases that must raise, not an exact failure condition. A zero price also raises, and whether the closed form comes to zero depends on the inputs.
- YieldToMaturity.Ytm: the contract states what a returned yield satisfies. When the search returns None is stated by separate lemmas over the trial yields (`YtmFoundIff`, `YtmStallsOnFlatSlope`, `YtmGivesUpOutOfRange`, `YtmExhausted`).
- Cashflows.Irr: as for `Ytm`, the contract states the property of a returned rate and the failure modes. `IrrFoundIff`, `IrrStallsOnFlatDerivative` and `IrrExhausted` state when it returns None.
- Scientific.SetAngleMode: `str.lower` is modelled as ASCII lower-casing. No non-ASCII character lower-cases to one of the ASCII letters compared against, so the accepted names are the same.

## Findings

| source | as written | input that shows it | evidently intended | confidence | as-written member | corrected member |
|---|---|---|---|---|---|---|
| scientific_calc.py:276 | `_prepare_expression` replaces every `e` with the decimal text of e, including the `e` inside function names. | "exp(1)" becomes "2.718281828459045xp(1)", so the `exp` that `evaluate_expression` offers (scientific_calc.py:253) can never be called. | Only an `e` that stands alone, with no letter on either side, is the constant. | high; not executed | Expressions.PrepareBreaksExp | Expressions.PrepareWordsKeepsExp |

=== FILE: bonds.dfy ===
/** Bond pricing of `FinancialCalculations` (finance_utils.py): the
    closed-form `bond_price` with its Macaulay-duration loop. */
module Bonds {
  import opened Wrappers
  import opened RealMath

  /** The coupon paid each period, `face * coupon_rate / payments_per_year`. */
  function CouponPayment(face: real, couponRate: real, paymentsPerYear: int): real
    requires paymentsPerYear != 0
  {
    face * couponRate / (paymentsPerYear as real)
  }

  /** The yield per period, `yield_rate / payments_per_year`. */
  function PeriodYield(yieldRate: real, paymentsPerYear: int): real
    requires paymentsPerYear != 0
  {
    yieldRate / (paymentsPerYear as real)
  }

  /** The flow of period `t`: a coupon, plus the face value at maturity. */
  function PeriodFlow(coupon: real, face: real, periods: int, t: int): real
  {
    if t == periods then coupon + face else coupon
  }

  /** `t / payments_per_year`: period `t` measured in years. */
  function PeriodInYears(t: int, paymentsPerYear: int): real
    requires paymentsPerYear != 0
  {
    (t as real) / (paymentsPerYear as real)
  }

  /** Present value of the coupons of periods 1..k at growth factor `x`. */
  function CouponSum(coupon: real, x: real, k: nat): real
    requires x != 0.0
  {
    if k == 0 then 0.0 else CouponSum(coupon, x, k - 1) + Discount(x, coupon, k)
  }

  /** Present value of the flows of periods 1..k, face value included. */
  function FlowsValue(coupon: real, face: real, x: real, periods: int, k: nat): real
    requires x != 0.0
  {
    if k == 0 then 0.0
    else FlowsValue(coupon, face, x, periods, k - 1) + Discount(x, PeriodFlow(coupon, face, periods, k), k)
  }

  /** The duration loop's `weighted_time` after periods 1..k. */
  function WeightedTime(coupon: real, face: real, x: real, paymentsPerYear: int, periods: int, k: nat): real
    requires (x != 0.0 || k == 0) && paymentsPerYear != 0
  {
    if k == 0 then 0.0
    else
      WeightedTime(coupon, face, x, paymentsPerYear, periods, k - 1)
        + PeriodInYears(k, paymentsPerYear) * Discount(x, PeriodFlow(coupon, face, periods, k), k)
  }

  /** The duration loop's `weighted_time` once it has walked through every
      period of the bond. */
  function BondWeightedTime(face: real, couponRate: real, yieldRate: real, years: int, paymentsPerYear: int): real
    requires paymentsPerYear != 0
    requires years * paymentsPerYear <= 0 || 1.0 + PeriodYield(yieldRate, paymentsPerYear) != 0.0
  {
    var periods := years * paymentsPerYear;
    WeightedTime(CouponPayment(face, couponRate, paymentsPerYear), face,
                 1.0 + PeriodYield(yieldRate, paymentsPerYear), paymentsPerYear, periods,
                 if periods > 0 then periods else 0)
  }

  /** `pv_coupons`: the closed-form annuity value, or `coupon * periods` at a
      zero period yield.  `(1 + y) ** -periods` raises at a yield of −1 when
      there are periods left. */
  function CouponsValue(coupon: real, periodYield: real, periods: int): (r: Result<real>)
    ensures r.Failure? <==> periodYield == -1.0 && periods > 0
    ensures r.Failure? ==> r.error == ZeroDivisionError
    ensures periodYield == 0.0 ==> r == Success(coupon * (periods as real))
  {
    if periodYield == 0.0 then Success(coupon * (periods as real))
    else
      var remaining :- IntPow(1.0 + periodYield, -periods);
      Success(coupon * (1.0 - remaining) / periodYield)
  }

  /** `pv_face_value`: the face value discounted over all periods. */
  function FaceValue(face: real, periodYield: real, periods: int): (r: Result<real>)
    ensures r.Failure? <==> periodYield == -1.0 && periods != 0
    ensures r.Failure? ==> r.error == ZeroDivisionError
  {
    var growth :- IntPow(1.0 + periodYield, periods);
    Div(face, growth)
  }

  /** What `bond_price` returns; `annualCoupon` is its `coupon_payment`. */
  datatype BondResult = BondResult(
    price: real,
    pvCoupons: real,
    pvFaceValue: real,
    currentYield: real,
    duration: real,
    annualCoupon: real)

  /** `bond_price`.  It raises ZeroDivisionError for zero payments per year,
      for a period yield of −1 with periods to go, and for a zero price. */
  function BondPrice(face: real, couponRate: real, yieldRate: real, years: int, paymentsPerYear: int): (r: Result<BondResult>)
    ensures r.Failure? ==> r.error == ZeroDivisionError
    ensures paymentsPerYear == 0 ==> r.Failure?
    ensures (&& paymentsPerYear != 0 && PeriodYield(yieldRate, paymentsPerYear) == -1.0
             && years * paymentsPerYear != 0) ==> r.Failure?
    ensures r.Success? ==>
              (&& r.value.price == r.value.pvCoupons + r.value.pvFaceValue
               && r.value.price != 0.0
               && r.value.currentYield * r.value.price == r.value.annualCoupon
               && r.value.annualCoupon == face * couponRate)
    ensures r.Success? ==>
              (&& paymentsPerYear != 0
               && (years * paymentsPerYear <= 0 || 1.0 + PeriodYield(yieldRate, paymentsPerYear) != 0.0)
               && r.value.duration * r.value.price
                  == BondWeightedTime(face, couponRate, yieldRate, years, paymentsPerYear))
    ensures r.Success? ==>
              (&& CouponsValue(CouponPayment(face, couponRate, paymentsPerYear),
                               PeriodYield(yieldRate, paymentsPerYear), years * paymentsPerYear)
                  == Success(r.value.pvCoupons)
               && FaceValue(face, PeriodYield(yieldRate, paymentsPerYear), years * paymentsPerYear)
                  == Success(r.value.pvFaceValue))
  {
    if paymentsPerYear == 0 then Failure(ZeroDivisionError)
    else
      var periods := years * paymentsPerYear;
      var coupon := CouponPayment(face, couponRate, paymentsPerYear);
      var periodYield := PeriodYield(yieldRate, paymentsPerYear);
      var pvCoupons :- CouponsValue(coupon, periodYield, periods);
      var pvFaceValue :- FaceValue(face, periodYield, periods);
      var price := pvCoupons + pvFaceValue;
      if price == 0.0 then Failure(ZeroDivisionError)
      else
        var annualCoupon := coupon * (paymentsPerYear as real);
        var weighted := BondWeightedTime(face, couponRate, yieldRate, years, paymentsPerYear);
        QuotientTimes(weighted, price);
        Success(BondResult(price, pvCoupons, pvFaceValue, annualCoupon / price,
                           weighted / price, annualCoupon))
  }

  /** With a zero yield the coupons are simply added up. */
  lemma ZeroYieldCoupons(face: real, couponRate: real, years: int, paymentsPerYear: int)
    requires BondPrice(face, couponRate, 0.0, years, paymentsPerYear).Success?
    ensures BondPrice(face, couponRate, 0.0, years, paymentsPerYear).value.pvCoupons
         == CouponPayment(face, couponRate, paymentsPerYear) * ((years * paymentsPerYear) as real)
  {
  }

  // The geometric series: y * Σ_{t=1..n} c / (1+y)^t == c * (1 - 1/(1+y)^n).

  lemma GeometricStep(c: real, y: real, x: real, p: real, s: real, s2: real)
    requires x == 1.0 + y && x != 0.0 && p != 0.0
    requires y * s == c * (1.0 - 1.0 / p)
    requires s2 == s + c / (x * p)
    ensures y * s2 == c * (1.0 - 1.0 / (x * p))
  {
    assert y * (c / (x * p)) == c / p - c / (x * p);
  }

  lemma {:induction false} CouponSumClosedForm(c: real, y: real, n: nat)
    requires 1.0 + y != 0.0
    ensures Pow(1.0 + y, n) != 0.0
    ensures y * CouponSum(c, 1.0 + y, n) == c * (1.0 - 1.0 / Pow(1.0 + y, n))
  {
    var x := 1.0 + y;
    PowNonzero(x, n);
    if n > 0 {
      CouponSumClosedForm(c, y, n - 1);
      PowNonzero(x, n - 1);
      var p := Pow(x, n - 1);
      assert Pow(x, n) == x * p;
      GeometricStep(c, y, x, p, CouponSum(c, x, n - 1), CouponSum(c, x, n));
    }
  }

  lemma {:induction false} CouponSumAtZeroYield(c: real, n: nat)
    ensures CouponSum(c, 1.0, n) == c * (n as real)
  {
    if n > 0 {
      CouponSumAtZeroYield(c, n - 1);
      PowOfOne(n);
      assert Discount(1.0, c, n) == c;
    }
  }

  /** Before maturity only coupons flow. */
  lemma {:induction false} FlowsBeforeMaturity(coupon: real, face: real, x: real, periods: int, k: nat)
    requires x != 0.0 && k < periods
    ensures FlowsValue(coupon, face, x, periods, k) == CouponSum(coupon, x, k)
  {
    if k > 0 {
      FlowsBeforeMaturity(coupon, face, x, periods, k - 1);
    }
  }

  lemma FlowsAtMaturity(coupon: real, face: real, x: real, periods: nat)
    requires x != 0.0 && periods >= 1
    ensures FlowsValue(coupon, face, x, periods, periods)
         == CouponSum(coupon, x, periods) + Discount(x, face, periods)
  {
    FlowsBeforeMaturity(coupon, face, x, periods, periods - 1);
    PowNonzero(x, periods);
    assert Discount(x, coupon + face, periods) == Discount(x, coupon, periods) + Discount(x, face, periods);
  }

  /** `(1 + y) ** -n` is the reciprocal of the n-th power. */
  lemma RemainingIsReciprocal(x: real, n: nat)
    requires x != 0.0
    ensures Pow(x, n) != 0.0
    ensures IntPow(x, -(n as int)).value == 1.0 / Pow(x, n)
  {
    PowNonzero(x, n);
  }

  lemma DivideOut(y: real, s: real, t: real)
    requires y != 0.0 && y * s == t
    ensures t / y == s
  {
  }

  lemma ClosedFormStep(c: real, y: real, s: real, p: real, remaining: real)
    requires y != 0.0 && p != 0.0 && remaining == 1.0 / p
    requires y * s == c * (1.0 - 1.0 / p)
    ensures c * (1.0 - remaining) / y == s
  {
    DivideOut(y, s, c * (1.0 - remaining));
  }

  lemma NonzeroYieldCouponsValue(coupon: real, y: real, periods: nat)
    requires 1.0 + y != 0.0 && y != 0.0
    ensures CouponsValue(coupon, y, periods).Success?
    ensures CouponsValue(coupon, y, periods).value == CouponSum(coupon, 1.0 + y, periods)
  {
    CouponSumClosedForm(coupon, y, periods);
    RemainingIsReciprocal(1.0 + y, periods);
    ClosedFormStep(coupon, y, CouponSum(coupon, 1.0 + y, periods), Pow(1.0 + y, periods),
                   IntPow(1.0 + y, -(periods as int)).value);
  }

  /** The closed-form coupon value is the sum of the discounted coupons. */
  lemma CouponsValueIsSum(coupon: real, y: real, periods: nat)
    requires 1.0 + y != 0.0
    ensures CouponsValue(coupon, y, periods).Success?
    ensures CouponsValue(coupon, y, periods).value == CouponSum(coupon, 1.0 + y, periods)
  {
    if y == 0.0 {
      CouponSumAtZeroYield(coupon, periods);
    } else {
      NonzeroYieldCouponsValue(coupon, y, periods);
    }
  }

  /** The face value discounted over the periods. */
  lemma FaceValueIsDiscount(face: real, y: real, periods: nat)
    requires 1.0 + y != 0.0
    ensures FaceValue(face, y, periods).Success?
    ensures FaceValue(face, y, periods).value == Discount(1.0 + y, face, periods)
  {
    PowNonzero(1.0 + y, periods);
  }

  /** The two closed-form parts add up to the present value of the flows. */
  lemma PartsArePresentValueOfFlows(coupon: real, face: real, y: real, periods: nat)
    requires 1.0 + y != 0.0 && periods >= 1
    ensures CouponsValue(coupon, y, periods).Success? && FaceValue(face, y, periods).Success?
    ensures CouponsValue(coupon, y, periods).value + FaceValue(face, y, periods).value
         == FlowsValue(coupon, face, 1.0 + y, periods, periods)
  {
    CouponsValueIsSum(coupon, y, periods);
    FaceValueIsDiscount(face, y, periods);
    FlowsAtMaturity(coupon, face, 1.0 + y, periods);
  }

  /** The closed-form price is the present value of the per-period flows the
      duration loop walks through, the face value arriving with the last
      coupon. */
  lemma BondPriceIsPresentValueOfFlows(face: real, couponRate: real, yieldRate: real, years: int, paymentsPerYear: int)
    requires BondPrice(face, couponRate, yieldRate, years, paymentsPerYear).Success?
    requires years * paymentsPerYear >= 1
    ensures paymentsPerYear != 0 && 1.0 + PeriodYield(yieldRate, paymentsPerYear) != 0.0
    ensures BondPrice(face, couponRate, yieldRate, years, paymentsPerYear).value.price
         == FlowsValue(CouponPayment(face, couponRate, paymentsPerYear), face,
                       1.0 + PeriodYield(yieldRate, paymentsPerYear),
                       years * paymentsPerYear, years * paymentsPerYear)
  {
    PartsArePresentValueOfFlows(CouponPayment(face, couponRate, paymentsPerYear), face,
                                PeriodYield(yieldRate, paymentsPerYear), years * paymentsPerYear);
  }

  lemma ParArithmetic(face: real, coupon: real, y: real, remaining: real, growth: real)
    requires y != 0.0 && coupon == face * y && remaining * growth == 1.0
    ensures coupon * (1.0 - remaining) / y + face / growth == face
  {
    assert face / growth == face * remaining;
    assert coupon * (1.0 - remaining) / y == face * (1.0 - remaining);
  }

  lemma IntPowOfOne(n: int)
    ensures IntPow(1.0, n) == Success(1.0)
  {
    PowOfOne(if n >= 0 then n else -n);
  }

  lemma ParAtZeroYield(face: real, coupon: real, periods: int)
    requires coupon == face * 0.0
    ensures CouponsValue(coupon, 0.0, periods) == Success(0.0)
    ensures FaceValue(face, 0.0, periods) == Success(face)
  {
    IntPowOfOne(periods);
  }

  lemma ParAtNonzeroYield(face: real, coupon: real, y: real, periods: int)
    requires y != 0.0 && 1.0 + y != 0.0 && coupon == face * y
    ensures CouponsValue(coupon, y, periods).Success? && FaceValue(face, y, periods).Success?
    ensures CouponsValue(coupon, y, periods).value + FaceValue(face, y, periods).value == face
  {
    IntPowInverse(1.0 + y, periods);
    ParArithmetic(face, coupon, y, IntPow(1.0 + y, -periods).value, IntPow(1.0 + y, periods).value);
  }

  /** At a coupon of `face * y` per period and a period yield of `y`, the
      coupons and the face value add up to the face value. */
  lemma ParParts(face: real, coupon: real, y: real, periods: int)
    requires coupon == face * y
    requires CouponsValue(coupon, y, periods).Success? && FaceValue(face, y, periods).Success?
    ensures CouponsValue(coupon, y, periods).value + FaceValue(face, y, periods).value == face
  {
    if y == 0.0 {
      ParAtZeroYield(face, coupon, periods);
    } else if 1.0 + y == 0.0 {
      assert periods == 0;
      assert IntPow(0.0, 0) == Success(1.0);
    } else {
      ParAtNonzeroYield(face, coupon, y, periods);
    }
  }

  lemma CouponIsFaceTimesYield(face: real, rate: real, paymentsPerYear: int)
    requires paymentsPerYear != 0
    ensures CouponPayment(face, rate, paymentsPerYear) == face * PeriodYield(rate, paymentsPerYear)
  {
  }

  /** A bond whose coupon rate equals its yield trades at par. */
  lemma ParBond(face: real, rate: real, years: int, paymentsPerYear: int)
    requires BondPrice(face, rate, rate, years, paymentsPerYear).Success?
    ensures BondPrice(face, rate, rate, years, paymentsPerYear).value.price == face
  {
    CouponIsFaceTimesYield(face, rate, paymentsPerYear);
    ParParts(face, CouponPayment(face, rate, paymentsPerYear), PeriodYield(rate, paymentsPerYear),
             years * paymentsPerYear);
  }

  /** `x ** n * x ** -n == 1` for a nonzero base. */
  lemma IntPowInverse(x: real, n: int)
    requires x != 0.0
    ensures IntPow(x, n).value * IntPow(x, -n).value == 1.0
  {
    PowNonzero(x, if n >= 0 then n else -n);
  }

  // Bounds on the duration: each flow's weight lies between the first and the
  // last period measured in years.

  lemma BoundStep(lo: real, hi: real, a: real, d: real, w: real, v: real)
    requires lo * a <= d <= hi * a
    requires lo <= w <= hi && v >= 0.0
    ensures lo * (a + v) <= d + w * v <= hi * (a + v)
  {
    MulMonotone(lo, w, v);
    MulMonotone(w, hi, v);
  }

  lemma PeriodInYearsMonotone(a: int, b: int, paymentsPerYear: int)
    requires a <= b && paymentsPerYear >= 1
    ensures PeriodInYears(a, paymentsPerYear) <= PeriodInYears(b, paymentsPerYear)
  {
  }

  lemma DiscountNonnegative(x: real, c: real, k: nat)
    requires x > 0.0 && c >= 0.0
    ensures Discount(x, c, k) >= 0.0
  {
    PowPositive(x, k);
  }

  lemma {:induction false} WeightedTimeBounds(coupon: real, face: real, x: real, paymentsPerYear: int, periods: int, k: nat)
    requires x > 0.0 && paymentsPerYear >= 1 && coupon >= 0.0 && face >= 0.0 && k <= periods
    ensures PeriodInYears(1, paymentsPerYear) * FlowsValue(coupon, face, x, periods, k)
         <= WeightedTime(coupon, face, x, paymentsPerYear, periods, k)
         <= PeriodInYears(periods, paymentsPerYear) * FlowsValue(coupon, face, x, periods, k)
  {
    if k > 0 {
      WeightedTimeBounds(coupon, face, x, paymentsPerYear, periods, k - 1);
      DiscountNonnegative(x, PeriodFlow(coupon, face, periods, k), k);
      PeriodInYearsMonotone(1, k, paymentsPerYear);
      PeriodInYearsMonotone(k, periods, paymentsPerYear);
      BoundStep(PeriodInYears(1, paymentsPerYear), PeriodInYears(periods, paymentsPerYear),
                FlowsValue(coupon, face, x, periods, k - 1),
                WeightedTime(coupon, face, x, paymentsPerYear, periods, k - 1),
                PeriodInYears(k, paymentsPerYear),
                Discount(x, PeriodFlow(coupon, face, periods, k), k));
    }
  }

  lemma QuotientBounds(lo: real, hi: real, w: real, p: real)
    requires p > 0.0 && lo * p <= w <= hi * p
    ensures lo <= w / p <= hi
  {
  }

  lemma {:induction false} FlowsNonnegative(coupon: real, face: real, x: real, periods: int, k: nat)
    requires x > 0.0 && coupon >= 0.0 && face >= 0.0
    ensures FlowsValue(coupon, face, x, periods, k) >= 0.0
  {
    if k > 0 {
      FlowsNonnegative(coupon, face, x, periods, k - 1);
      DiscountNonnegative(x, PeriodFlow(coupon, face, periods, k), k);
    }
  }

  /** With the face value repaid, the flows are worth something. */
  lemma FlowsPositive(coupon: real, face: real, x: real, periods: nat)
    requires x > 0.0 && coupon >= 0.0 && face > 0.0 && periods >= 1
    ensures FlowsValue(coupon, face, x, periods, periods) > 0.0
  {
    FlowsNonnegative(coupon, face, x, periods, periods - 1);
    PowPositive(x, periods);
    assert Discount(x, coupon + face, periods) > 0.0;
  }

  lemma CouponNonnegative(face: real, couponRate: real, paymentsPerYear: int)
    requires face >= 0.0 && couponRate >= 0.0 && paymentsPerYear >= 1
    ensures CouponPayment(face, couponRate, paymentsPerYear) >= 0.0
  {
    MulNonnegative(face, couponRate);
  }

  /** For a bond with non-negative coupons, a positive face value, a period
      yield above −1 and at least one period, the Macaulay duration lies
      between one payment interval and the years to maturity. */
  lemma DurationBounds(face: real, couponRate: real, yieldRate: real, years: int, paymentsPerYear: int)
    requires paymentsPerYear >= 1 && years * paymentsPerYear >= 1
    requires face > 0.0 && couponRate >= 0.0
    requires 1.0 + PeriodYield(yieldRate, paymentsPerYear) > 0.0
    ensures BondPrice(face, couponRate, yieldRate, years, paymentsPerYear).Success?
    ensures PeriodInYears(1, paymentsPerYear)
         <= BondPrice(face, couponRate, yieldRate, years, paymentsPerYear).value.duration
         <= years as real
  {
    var periods := years * paymentsPerYear;
    var coupon := CouponPayment(face, couponRate, paymentsPerYear);
    var x := 1.0 + PeriodYield(yieldRate, paymentsPerYear);
    CouponNonnegative(face, couponRate, paymentsPerYear);
    PartsArePresentValueOfFlows(coupon, face, PeriodYield(yieldRate, paymentsPerYear), periods);
    FlowsPositive(coupon, face, x, periods);
    WeightedTimeBounds(coupon, face, x, paymentsPerYear, periods, periods);
    QuotientBounds(PeriodInYears(1, paymentsPerYear), PeriodInYears(periods, paymentsPerYear),
                   WeightedTime(coupon, face, x, paymentsPerYear, periods, periods),
                   FlowsValue(coupon, face, x, periods, periods));
    assert PeriodInYears(periods, paymentsPerYear) == years as real;
  }

  lemma {:induction false} NoCouponsBeforeMaturity(face: real, x: real, paymentsPerYear: int, periods: int, k: nat)
    requires x != 0.0 && paymentsPerYear != 0 && k < periods
    ensures CouponSum(0.0, x, k) == 0.0
    ensures WeightedTime(0.0, face, x, paymentsPerYear, periods, k) == 0.0
  {
    if k > 0 {
      NoCouponsBeforeMaturity(face, x, paymentsPerYear, periods, k - 1);
      PowNonzero(x, k);
      assert Discount(x, 0.0, k) == 0.0 / Pow(x, k) == 0.0;
    }
  }

  /** A zero-coupon bond pays everything at maturity, so its Macaulay
      duration is its maturity in years. */
  lemma ZeroCouponDurationIsMaturity(face: real, yieldRate: real, years: int, paymentsPerYear: int)
    requires paymentsPerYear >= 1 && years * paymentsPerYear >= 1
    requires face > 0.0
    requires 1.0 + PeriodYield(yieldRate, paymentsPerYear) > 0.0
    ensures BondPrice(face, 0.0, yieldRate, years, paymentsPerYear).Success?
    ensures BondPrice(face, 0.0, yieldRate, years, paymentsPerYear).value.duration == years as real
  {
    DurationBounds(face, 0.0, yieldRate, years, paymentsPerYear);
    var periods := years * paymentsPerYear;
    var x := 1.0 + PeriodYield(yieldRate, paymentsPerYear);
    var b := BondPrice(face, 0.0, yieldRate, years, paymentsPerYear).value;
    assert CouponPayment(face, 0.0, paymentsPerYear) == 0.0;
    BondPriceIsPresentValueOfFlows(face, 0.0, yieldRate, years, paymentsPerYear);
    NoCouponsBeforeMaturity(face, x, paymentsPerYear, periods, periods - 1);
    FlowsBeforeMaturity(0.0, face, x, periods, periods - 1);
    FlowsAtMaturity(0.0, face, x, periods);
    assert CouponSum(0.0, x, periods) == 0.0 by {
      PowNonzero(x, periods);
      assert Discount(x, 0.0, periods) == 0.0 / Pow(x, periods) == 0.0;
    }
    var d := Discount(x, face, periods);
    assert b.price == d;
    assert PeriodInYears(periods, paymentsPerYear) == years as real;
    assert b.duration * d == (years as real) * d;
    CancelDuration(b.duration, years as real, d);
  }

  lemma QuotientTimes(w: real, p: real)
    requires p != 0.0
    ensures w / p * p == w
  {
  }

  lemma CancelDuration(a: real, b: real, d: real)
    requires d != 0.0 && a * d == b * d
    ensures a == b
  {
    assert (a - b) * d == 0.0;
  }
}

=== FILE: cashflows.dfy ===
/** Cash-flow metrics of `FinancialCalculations` (finance_utils.py): net
    present value, internal rate of return and payback period.  Cash flow `i`
    of a series falls `i` periods from now; index 0 is undiscounted. */
module Cashflows {
  import opened Wrappers
  import opened RealMath
  import Newton

  /** Absolute NPV below which a trial rate is accepted as the IRR. */
  const IrrTolerance: real := 0.000001
  /** Absolute derivative below which the IRR search stalls. */
  const FlatDerivative: real := 0.0000000001
  /** The IRR search's default starting rate, used by the calculator's
      NPV/IRR form. */
  const DefaultIrrGuess: real := 0.1

  /** `Σ cashflows[i] / x^i`, summed left to right.  Every discount factor is
      nonzero unless the series has at most one (undiscounted) flow. */
  function DiscountedSum(x: real, cashflows: seq<real>): real
    requires x != 0.0 || |cashflows| <= 1
    decreases |cashflows|
  {
    if |cashflows| == 0 then 0.0
    else
      var n := |cashflows| - 1;
      PowVanishes(x, n);
      DiscountedSum(x, cashflows[..n]) + cashflows[n] / Pow(x, n)
  }

  /** `npv`: Σ cf_i / (1 + rate)^i over the flows, flow `i` falling `i`
      periods out.
      A discount factor `(1 + rate) ** i` is zero, and the division raises,
      exactly when the rate is −1 and some flow lies in a later period. */
  function Npv(rate: real, cashflows: seq<real>): (r: Result<real>)
    ensures r.Failure? <==> 1.0 + rate == 0.0 && |cashflows| >= 2
    ensures r.Failure? ==> r.error == ZeroDivisionError
    ensures r.Success? ==> r.value == DiscountedSum(1.0 + rate, cashflows)
  {
    if 1.0 + rate == 0.0 && |cashflows| >= 2 then Failure(ZeroDivisionError)
    else Success(DiscountedSum(1.0 + rate, cashflows))
  }

  /** At a zero rate nothing is discounted: the NPV is the plain sum. */
  lemma {:induction false} NpvAtZeroRate(cashflows: seq<real>)
    ensures Npv(0.0, cashflows) == Success(Sum(cashflows))
    decreases |cashflows|
  {
    if |cashflows| > 0 {
      var n := |cashflows| - 1;
      NpvAtZeroRate(cashflows[..n]);
      PowOfOne(n);
      assert cashflows[n] / Pow(1.0, n) == cashflows[n];
    }
  }

  /** A single flow is the NPV at every rate, −1 included. */
  lemma NpvOfSingleFlow(rate: real, c: real)
    ensures Npv(rate, [c]) == Success(c)
  {
    assert [c][..0] == [];
    assert Pow(1.0 + rate, 0) == 1.0;
    assert DiscountedSum(1.0 + rate, [c]) == 0.0 + c / 1.0;
  }

  // (a + b/p)/x, expanded.
  lemma DistributeQuotient(a: real, b: real, p: real, x: real)
    requires x != 0.0 && p != 0.0
    ensures (a + b / p) / x == a / x + b / (x * p)
    ensures -(a + b / p) / x == -a / x + (-b) / (x * p)
  {
  }

  /** Horner's form of the NPV: the first flow plus the NPV of the rest
      discounted by one more period. */
  lemma {:induction false} NpvHorner(rate: real, c: real, rest: seq<real>)
    requires 1.0 + rate != 0.0
    ensures Npv(rate, [c] + rest) == Success(c + Npv(rate, rest).value / (1.0 + rate))
    decreases |rest|
  {
    var x := 1.0 + rate;
    if |rest| == 0 {
      assert [c] + rest == [c];
      assert DiscountedSum(x, rest) / x == 0.0;
    } else {
      var m := |rest|;
      var s := [c] + rest;
      assert s[..m] == [c] + rest[..m - 1];
      assert s[m] == rest[m - 1];
      NpvHorner(rate, c, rest[..m - 1]);
      PowNonzero(x, m - 1);
      var a := DiscountedSum(x, rest[..m - 1]);
      var b := DiscountedSum(x, rest);
      var p := Pow(x, m - 1);
      assert Pow(x, m) == x * p;
      assert b == a + rest[m - 1] / p;
      assert DiscountedSum(x, s) == c + a / x + rest[m - 1] / (x * p);
      DistributeQuotient(a, rest[m - 1], p, x);
    }
  }

  /** Flow `c` of period `i` weighted by its period, `i * c`. */
  function Weight(i: nat, c: real): real
  {
    (i as real) * c
  }

  /** The derivative's term for flow `c` of period `i`: `-i * c / x^(i+1)`. */
  function DerivativeTerm(x: real, c: real, i: nat): real
    requires x != 0.0
  {
    PowNonzero(x, i + 1);
    -Weight(i, c) / Pow(x, i + 1)
  }

  /** `Σ -i * cashflows[i] / x^(i+1)`, summed left to right. */
  function DerivativeSum(x: real, cashflows: seq<real>): real
    requires x != 0.0 || |cashflows| == 0
    decreases |cashflows|
  {
    if |cashflows| == 0 then 0.0
    else
      var n := |cashflows| - 1;
      DerivativeSum(x, cashflows[..n]) + DerivativeTerm(x, cashflows[n], n)
  }

  /** The analytic derivative of the NPV used by `irr`:
      Σ −i · cf_i / (1 + rate)^(i+1).  Every term divides by a
      positive power of `1 + rate`, so any flow at a rate of −1 raises. */
  function NpvDerivative(rate: real, cashflows: seq<real>): (r: Result<real>)
    ensures r.Failure? <==> 1.0 + rate == 0.0 && |cashflows| >= 1
    ensures r.Failure? ==> r.error == ZeroDivisionError
    ensures r.Success? ==> r.value == DerivativeSum(1.0 + rate, cashflows)
  {
    if 1.0 + rate == 0.0 && |cashflows| >= 1 then Failure(ZeroDivisionError)
    else Success(DerivativeSum(1.0 + rate, cashflows))
  }

  /** The flows weighted by their period index, `i * cf_i`. */
  function TimeWeighted(cashflows: seq<real>): (w: seq<real>)
    ensures |w| == |cashflows|
  {
    if |cashflows| == 0 then []
    else
      var n := |cashflows| - 1;
      TimeWeighted(cashflows[..n]) + [Weight(n, cashflows[n])]
  }

  // The arithmetic of one induction step of the lemma below: `a`/`b` are the
  // weighted sums without/with the last flow `c` of period `n`, `d`/`dn` the
  // derivatives without/with it, `p` = x^n and `q` = x^(n+1).
  lemma WeightedStep(a: real, b: real, d: real, dn: real, p: real, q: real, x: real, m: real)
    requires x != 0.0 && p != 0.0 && q == x * p
    requires b == a + m / p
    requires d == -a / x
    requires dn == d + -m / q
    ensures dn == -b / x
  {
    DistributeQuotient(a, m, p, x);
  }

  // The unfolding lemmas below peel the last flow off each sum.

  lemma UnfoldDiscountedSum(x: real, flows: seq<real>)
    requires x != 0.0 && |flows| >= 1
    ensures Pow(x, |flows| - 1) != 0.0
    ensures DiscountedSum(x, flows)
         == DiscountedSum(x, flows[..|flows| - 1]) + flows[|flows| - 1] / Pow(x, |flows| - 1)
  {
    PowNonzero(x, |flows| - 1);
  }

  lemma {:induction false} TimeWeightedSnoc(prefix: seq<real>, c: real)
    ensures TimeWeighted(prefix + [c]) == TimeWeighted(prefix) + [Weight(|prefix|, c)]
  {
    var flows := prefix + [c];
    assert flows[..|flows| - 1] == prefix;
  }

  lemma UnfoldWeightedSnoc(x: real, prefix: seq<real>, c: real)
    requires x != 0.0
    ensures Pow(x, |prefix|) != 0.0
    ensures DiscountedSum(x, TimeWeighted(prefix + [c]))
         == DiscountedSum(x, TimeWeighted(prefix)) + Weight(|prefix|, c) / Pow(x, |prefix|)
  {
    var w := TimeWeighted(prefix + [c]);
    TimeWeightedSnoc(prefix, c);
    assert w[..|prefix|] == TimeWeighted(prefix);
    UnfoldDiscountedSum(x, w);
  }

  lemma UnfoldDerivativeSnoc(x: real, prefix: seq<real>, c: real)
    requires x != 0.0
    ensures Pow(x, |prefix| + 1) == x * Pow(x, |prefix|)
    ensures Pow(x, |prefix|) != 0.0
    ensures DerivativeSum(x, prefix + [c])
         == DerivativeSum(x, prefix) + -Weight(|prefix|, c) / Pow(x, |prefix| + 1)
  {
    assert (prefix + [c])[..|prefix|] == prefix;
    DerivativeTermFactors(x, c, |prefix|);
  }

  lemma DerivativeTermFactors(x: real, c: real, i: nat)
    requires x != 0.0
    ensures Pow(x, i + 1) == x * Pow(x, i)
    ensures Pow(x, i) != 0.0
    ensures DerivativeTerm(x, c, i) == -Weight(i, c) / Pow(x, i + 1)
  {
    PowNonzero(x, i);
  }

  lemma DerivativeInductiveStep(x: real, prefix: seq<real>, c: real)
    requires x != 0.0
    requires DerivativeSum(x, prefix) == -DiscountedSum(x, TimeWeighted(prefix)) / x
    ensures DerivativeSum(x, prefix + [c]) == -DiscountedSum(x, TimeWeighted(prefix + [c])) / x
  {
    UnfoldWeightedSnoc(x, prefix, c);
    UnfoldDerivativeSnoc(x, prefix, c);
    WeightedStep(DiscountedSum(x, TimeWeighted(prefix)), DiscountedSum(x, TimeWeighted(prefix + [c])),
                 DerivativeSum(x, prefix), DerivativeSum(x, prefix + [c]),
                 Pow(x, |prefix|), Pow(x, |prefix| + 1), x, Weight(|prefix|, c));
  }

  lemma {:induction false} DerivativeSumIsScaledWeightedSum(x: real, cashflows: seq<real>)
    requires x != 0.0
    ensures DerivativeSum(x, cashflows) == -DiscountedSum(x, TimeWeighted(cashflows)) / x
    decreases |cashflows|
  {
    if |cashflows| == 0 {
      assert -DiscountedSum(x, []) / x == 0.0;
    } else {
      var prefix := cashflows[..|cashflows| - 1];
      DerivativeSumIsScaledWeightedSum(x, prefix);
      DerivativeInductiveStep(x, prefix, cashflows[|cashflows| - 1]);
      assert prefix + [cashflows[|cashflows| - 1]] == cashflows;
    }
  }

  /** The derivative is minus the NPV of the time-weighted flows, discounted
      by one more period. */
  lemma DerivativeIsDiscountedWeightedNpv(rate: real, cashflows: seq<real>)
    requires 1.0 + rate != 0.0
    ensures NpvDerivative(rate, cashflows)
         == Success(-Npv(rate, TimeWeighted(cashflows)).value / (1.0 + rate))
  {
    DerivativeSumIsScaledWeightedSum(1.0 + rate, cashflows);
  }

  /** One pass of the IRR loop at trial rate `rate`. */
  function IrrStep(cashflows: seq<real>, rate: real): (s: Newton.Step)
    ensures s == Newton.Converged
        <==> Npv(rate, cashflows).Success? && Abs(Npv(rate, cashflows).value) < IrrTolerance
    ensures s.Next? ==>
              (&& NpvDerivative(rate, cashflows).Success?
               && Abs(NpvDerivative(rate, cashflows).value) >= FlatDerivative
               && s.trial == rate - Npv(rate, cashflows).value / NpvDerivative(rate, cashflows).value)
    ensures s == Newton.GiveUp <==>
              (&& Npv(rate, cashflows).Success? && Abs(Npv(rate, cashflows).value) >= IrrTolerance
               && NpvDerivative(rate, cashflows).Success?
               && Abs(NpvDerivative(rate, cashflows).value) < FlatDerivative)
    ensures s.Raise? ==> s.error == ZeroDivisionError && 1.0 + rate == 0.0
  {
    match Npv(rate, cashflows)
    case Failure(e) => Newton.Raise(e)
    case Success(value) =>
      if Abs(value) < IrrTolerance then Newton.Converged
      else
        match NpvDerivative(rate, cashflows)
        case Failure(e) => Newton.Raise(e)
        case Success(slope) =>
          if Abs(slope) < FlatDerivative then Newton.GiveUp
          else Newton.Next(rate - value / slope)
  }

  function IrrLoop(cashflows: seq<real>): real -> Newton.Step
  {
    x => IrrStep(cashflows, x)
  }

  /** Newton–Raphson search for a rate at which the NPV vanishes. */
  function Irr(cashflows: seq<real>, guess: real): (r: Newton.Search)
    ensures r.Found? ==>
              Npv(r.root, cashflows).Success? && Abs(Npv(r.root, cashflows).value) < IrrTolerance
    ensures r.Raised? ==> r.error == ZeroDivisionError
  {
    Newton.Find(IrrLoop(cashflows), guess, Newton.MaxIterations)
  }

  /** `irr(cashflows)` with the default guess of 10%, as the calculator's
      form calls it. */
  function IrrFromDefaultGuess(cashflows: seq<real>): (r: Newton.Search)
    ensures r.Found? ==>
              Npv(r.root, cashflows).Success? && Abs(Npv(r.root, cashflows).value) < IrrTolerance
    ensures r.Raised? ==> r.error == ZeroDivisionError
    ensures |cashflows| == 0 ==> r == Newton.Found(DefaultIrrGuess)
  {
    IrrOfNoCashflows(DefaultIrrGuess);
    Irr(cashflows, DefaultIrrGuess)
  }

  /** An IRR search still moving after a hundred updates returns None. */
  lemma IrrExhausted(cashflows: seq<real>, guess: real)
    requires Newton.Trial(IrrLoop(cashflows), guess, Newton.MaxIterations).Some?
    ensures Irr(cashflows, guess) == Newton.NotFound
  {
    Newton.ExhaustedMeansNotFound(IrrLoop(cashflows), guess, Newton.MaxIterations);
  }

  /** The IRR search finds `y` exactly when `y` is one of its first hundred
      trial rates and the NPV there is within tolerance. */
  lemma IrrFoundIff(cashflows: seq<real>, guess: real, y: real)
    ensures Irr(cashflows, guess) == Newton.Found(y)
        <==> exists k :: 0 <= k < Newton.MaxIterations
                      && Newton.Trial(IrrLoop(cashflows), guess, k) == Some(y)
                      && Npv(y, cashflows).Success? && Abs(Npv(y, cashflows).value) < IrrTolerance
  {
    Newton.FoundIffConvergedTrial(IrrLoop(cashflows), guess, Newton.MaxIterations, y);
  }

  /** A trial rate with a non-negligible NPV and a flat derivative makes the
      search return None. */
  lemma IrrStallsOnFlatDerivative(cashflows: seq<real>, guess: real, k: nat, y: real)
    requires k < Newton.MaxIterations
    requires Newton.Trial(IrrLoop(cashflows), guess, k) == Some(y)
    requires Npv(y, cashflows).Success? && Abs(Npv(y, cashflows).value) >= IrrTolerance
    requires NpvDerivative(y, cashflows).Success? && Abs(NpvDerivative(y, cashflows).value) < FlatDerivative
    ensures Irr(cashflows, guess) == Newton.NotFound
  {
    Newton.GiveUpMeansNotFound(IrrLoop(cashflows), guess, Newton.MaxIterations, k, y);
  }

  /** Starting at a rate of −1 divides by zero unless the series is empty or
      its single flow is already within tolerance. */
  lemma IrrAtMinusOneRaises(cashflows: seq<real>)
    requires |cashflows| >= 2 || (|cashflows| == 1 && Abs(cashflows[0]) >= IrrTolerance)
    ensures Irr(cashflows, -1.0) == Newton.Raised(ZeroDivisionError)
  {
    if |cashflows| == 1 {
      assert cashflows == [cashflows[0]];
      NpvOfSingleFlow(-1.0, cashflows[0]);
    }
    assert IrrLoop(cashflows)(-1.0) == IrrStep(cashflows, -1.0);
    assert IrrStep(cashflows, -1.0) == Newton.Raise(ZeroDivisionError);
  }

  /** A trial rate of −1 reached within the iteration budget makes the search
      raise ZeroDivisionError, just as a guess of −1 does. */
  lemma IrrRaisesAtReachedMinusOne(cashflows: seq<real>, guess: real, k: nat)
    requires |cashflows| >= 2 || (|cashflows| == 1 && Abs(cashflows[0]) >= IrrTolerance)
    requires k < Newton.MaxIterations
    requires Newton.Trial(IrrLoop(cashflows), guess, k) == Some(-1.0)
    ensures Irr(cashflows, guess) == Newton.Raised(ZeroDivisionError)
  {
    IrrAtMinusOneRaises(cashflows);
    Newton.RaisedIffRaisingTrial(IrrLoop(cashflows), guess, Newton.MaxIterations, ZeroDivisionError);
  }

  /** `irr([-2, 1], guess=0)`: the first Newton step lands exactly on −1,
      where the next pass divides by zero. */
  lemma IrrStepsOntoMinusOne()
    ensures Newton.Trial(IrrLoop([-2.0, 1.0]), 0.0, 1) == Some(-1.0)
    ensures Irr([-2.0, 1.0], 0.0) == Newton.Raised(ZeroDivisionError)
  {
    var cf := [-2.0, 1.0];
    assert cf[..1] == [-2.0] && cf[..1][..0] == [];
    PowOfOne(1);
    PowOfOne(2);
    assert DiscountedSum(1.0, cf) == -1.0;
    assert DerivativeSum(1.0, cf[..1]) == 0.0;
    assert DerivativeTerm(1.0, 1.0, 1) == -1.0;
    assert DerivativeSum(1.0, cf) == -1.0;
    assert IrrStep(cf, 0.0) == Newton.Next(-1.0);
    assert IrrLoop(cf)(0.0) == IrrStep(cf, 0.0);
    IrrRaisesAtReachedMinusOne(cf, 0.0, 1);
  }

  /** With no cash flows the NPV is 0 at every rate, so the guess is returned. */
  lemma IrrOfNoCashflows(guess: real)
    ensures Irr([], guess) == Newton.Found(guess)
  {
  }

  // ---------------------------------------------------------------------
  // Payback period

  /** `payback_period`: None without an initial outflow; otherwise scans the
      running total from period 1. */
  function Payback(cashflows: seq<real>): (r: Option<real>)
    ensures r.Some? ==> |cashflows| >= 2 && cashflows[0] < 0.0
    ensures r.Some? ==> 0.0 < r.value <= (|cashflows| - 1) as real
  {
    if |cashflows| == 0 || cashflows[0] >= 0.0 then None
    else PaybackScan(cashflows, 1, cashflows[0])
  }

  /** The scan from period `i` with the running total of the earlier flows. */
  function PaybackScan(cashflows: seq<real>, i: nat, cumulative: real): (r: Option<real>)
    requires 1 <= i
    requires cumulative < 0.0
    ensures r.Some? ==> (i - 1) as real < r.value <= (|cashflows| - 1) as real
    decreases |cashflows| - i
  {
    if i >= |cashflows| then None
    else
      var total := cumulative + cashflows[i];
      if total >= 0.0 then
        if i == 1 then Some(1.0)
        else
          var previous := total - cashflows[i];
          FractionInUnitInterval(Abs(previous), cashflows[i]);
          Some((i - 1) as real + Abs(previous) / cashflows[i])
      else PaybackScan(cashflows, i + 1, total)
  }

  lemma FractionInUnitInterval(part: real, whole: real)
    requires 0.0 < part <= whole
    ensures 0.0 < part / whole <= 1.0
  {
  }

  /** The running total of flows 0..k. */
  function RunningTotal(cashflows: seq<real>, k: nat): real
    requires k < |cashflows|
  {
    Sum(cashflows[..k + 1])
  }

  lemma RunningTotalStep(cashflows: seq<real>, k: nat)
    requires 1 <= k < |cashflows|
    ensures RunningTotal(cashflows, k) == RunningTotal(cashflows, k - 1) + cashflows[k]
  {
    assert cashflows[..k + 1][..k] == cashflows[..k];
  }

  lemma RunningTotalFirst(cashflows: seq<real>)
    requires |cashflows| >= 1
    ensures RunningTotal(cashflows, 0) == cashflows[0]
  {
    var first := cashflows[..1];
    assert first[..0] == [];
    assert Sum(first) == Sum(first[..0]) + first[0];
  }

  /** `i` is the first period at which the running total is non-negative. */
  ghost predicate FirstRecovery(cashflows: seq<real>, i: nat)
  {
    && 1 <= i < |cashflows|
    && RunningTotal(cashflows, i) >= 0.0
    && forall k :: 0 <= k < i ==> RunningTotal(cashflows, k) < 0.0
  }

  /** The payback value from the first recovery period `i`: 1 when `i` is 1,
      otherwise `i - 1` plus the share of flow `i` needed to close the gap. */
  function Interpolated(cashflows: seq<real>, i: nat): real
    requires 1 <= i < |cashflows|
    requires cashflows[i] != 0.0
  {
    if i == 1 then 1.0 else (i - 1) as real + -RunningTotal(cashflows, i - 1) / cashflows[i]
  }

  lemma {:induction false} ScanFindsFirstRecovery(cashflows: seq<real>, j: nat, i: nat)
    requires FirstRecovery(cashflows, i)
    requires 1 <= j <= i
    ensures cashflows[i] > 0.0
    ensures PaybackScan(cashflows, j, RunningTotal(cashflows, j - 1)) == Some(Interpolated(cashflows, i))
    decreases i - j
  {
    RunningTotalStep(cashflows, i);
    RunningTotalStep(cashflows, j);
    if j < i {
      ScanFindsFirstRecovery(cashflows, j + 1, i);
    }
  }

  /** The result at the first recovery period: exactly 1 when it is period 1,
      otherwise a value in `(i - 1, i]` interpolated linearly in flow `i`,
      which is then strictly positive. */
  lemma PaybackAtFirstRecovery(cashflows: seq<real>, i: nat)
    requires FirstRecovery(cashflows, i)
    ensures cashflows[i] > 0.0
    ensures Payback(cashflows) == Some(Interpolated(cashflows, i))
    ensures i == 1 ==> Payback(cashflows) == Some(1.0)
    ensures (i - 1) as real < Interpolated(cashflows, i) <= i as real
  {
    RunningTotalFirst(cashflows);
    ScanFindsFirstRecovery(cashflows, 1, i);
    RunningTotalStep(cashflows, i);
    if i > 1 {
      FractionInUnitInterval(-RunningTotal(cashflows, i - 1), cashflows[i]);
    }
  }

  lemma {:induction false} ScanNoneIff(cashflows: seq<real>, j: nat)
    requires 1 <= j <= |cashflows|
    requires RunningTotal(cashflows, j - 1) < 0.0
    ensures PaybackScan(cashflows, j, RunningTotal(cashflows, j - 1)) == None
        <==> forall k :: j <= k < |cashflows| ==> RunningTotal(cashflows, k) < 0.0
    decreases |cashflows| - j
  {
    if j < |cashflows| {
      RunningTotalStep(cashflows, j);
      if RunningTotal(cashflows, j) < 0.0 {
        ScanNoneIff(cashflows, j + 1);
      }
    }
  }

  /** No payback exactly when there is no initial outflow or the running
      total stays negative throughout. */
  lemma PaybackNoneIff(cashflows: seq<real>)
    ensures Payback(cashflows) == None <==>
              (|| |cashflows| == 0
               || cashflows[0] >= 0.0
               || forall k :: 0 <= k < |cashflows| ==> RunningTotal(cashflows, k) < 0.0)
  {
    if |cashflows| > 0 {
      RunningTotalFirst(cashflows);
      if cashflows[0] < 0.0 {
        ScanNoneIff(cashflows, 1);
      }
    }
  }

  /** A 1000 outlay recovered by three flows of 400 pays back in 2.5 periods. */
  lemma PaybackExample()
    ensures Payback([-1000.0, 400.0, 400.0, 400.0]) == Some(2.5)
    ensures Payback([-1000.0, 1000.0]) == Some(1.0)
    ensures Payback([-1000.0, 2000.0]) == Some(1.0)
    ensures Payback([1000.0, -400.0]) == None
    ensures Payback([-1000.0, 400.0, 400.0]) == None
  {
  }
}

=== FILE: expressions.dfy ===
/** Expression text handling of the scientific calculator
    (scientific_calc.py): `_prepare_expression`, the rewriting done before an
    expression is evaluated, and `validate_scientific_input`, the input
    check. */
module Expressions {

  // ---- Single-character replacement ----

  /** `str.replace` with a one-character pattern: every `ch` becomes `rep`. */
  function Replace(s: string, ch: char, rep: string): string
  {
    if |s| == 0 then "" else (if s[0] == ch then rep else [s[0]]) + Replace(s[1..], ch, rep)
  }

  /** Number of occurrences of `ch` in `s`, as `str.count`. */
  function Count(s: string, ch: char): nat
  {
    if |s| == 0 then 0 else (if s[0] == ch then 1 else 0) + Count(s[1..], ch)
  }

  lemma {:induction false} ReplaceAppend(a: string, b: string, ch: char, rep: string)
    ensures Replace(a + b, ch, rep) == Replace(a, ch, rep) + Replace(b, ch, rep)
  {
    if |a| == 0 {
      assert a + b == b;
    } else {
      assert (a + b)[1..] == a[1..] + b;
      ReplaceAppend(a[1..], b, ch, rep);
    }
  }

  lemma {:induction false} CountAppend(a: string, b: string, ch: char)
    ensures Count(a + b, ch) == Count(a, ch) + Count(b, ch)
  {
    if |a| == 0 {
      assert a + b == b;
    } else {
      assert (a + b)[1..] == a[1..] + b;
      CountAppend(a[1..], b, ch);
    }
  }

  /** Replacing a character that does not occur changes nothing. */
  lemma {:induction false} ReplaceAbsent(s: string, ch: char, rep: string)
    requires ch !in s
    ensures Replace(s, ch, rep) == s
  {
    if |s| > 0 {
      assert s[1..] == s[1..];
      assert forall i :: 0 <= i < |s[1..]| ==> s[1..][i] == s[i + 1];
      ReplaceAbsent(s[1..], ch, rep);
    }
  }

  lemma ReplaceSingle(c: char, ch: char, rep: string)
    ensures Replace([c], ch, rep) == if c == ch then rep else [c]
  {
    assert [c][1..] == [];
  }

  // ---- Preparing an expression ----

  /** `str(math.pi)` and `str(math.e)`: the shortest decimal strings that
      round-trip the double nearest to pi and e. */
  const PiText: string := "3.141592653589793"
  const EText: string := "2.718281828459045"

  /** The first five replacements of `_prepare_expression`: the operator
      signs and pi. */
  function ReplaceOperators(s: string): string
  {
    var s1 := Replace(s, '×', "*");
    var s2 := Replace(s1, '÷', "/");
    var s3 := Replace(s2, '−', "-");
    var s4 := Replace(s3, '^', "**");
    Replace(s4, 'π', PiText)
  }

  /** `_prepare_expression`, as written: the operator replacements, then
      every 'e' replaced by e. */
  function Prepare(s: string): string
  {
    Replace(ReplaceOperators(s), 'e', EText)
  }

  /** The characters the preparation rewrites. */
  predicate Special(c: char)
  {
    c == '×' || c == '÷' || c == '−' || c == '^' || c == 'π' || c == 'e'
  }

  /** What a single character turns into. */
  function Expand(c: char): (r: string)
    ensures forall i :: 0 <= i < |r| ==> !Special(r[i])
  {
    if c == '×' then "*"
    else if c == '÷' then "/"
    else if c == '−' then "-"
    else if c == '^' then "**"
    else if c == 'π' then PiText
    else if c == 'e' then EText
    else [c]
  }

  /** The reference rewriting: every character expanded on its own. */
  function ExpandAll(s: string): string
  {
    if |s| == 0 then "" else Expand(s[0]) + ExpandAll(s[1..])
  }

  lemma PrepareAppend(a: string, b: string)
    ensures Prepare(a + b) == Prepare(a) + Prepare(b)
  {
    ReplaceAppend(a, b, '×', "*");
    var a1, b1 := Replace(a, '×', "*"), Replace(b, '×', "*");
    ReplaceAppend(a1, b1, '÷', "/");
    var a2, b2 := Replace(a1, '÷', "/"), Replace(b1, '÷', "/");
    ReplaceAppend(a2, b2, '−', "-");
    var a3, b3 := Replace(a2, '−', "-"), Replace(b2, '−', "-");
    ReplaceAppend(a3, b3, '^', "**");
    var a4, b4 := Replace(a3, '^', "**"), Replace(b3, '^', "**");
    ReplaceAppend(a4, b4, 'π', PiText);
    ReplaceAppend(ReplaceOperators(a), ReplaceOperators(b), 'e', EText);
  }

  /** On a single character the six replacements amount to `Expand`: no
      replacement's output contains a character a later one rewrites. */
  lemma PrepareChar(c: char)
    ensures Prepare([c]) == Expand(c)
  {
    ReplaceSingle(c, '×', "*");
    var s1 := if c == '×' then "*" else [c];
    ReplaceSingle(s1[0], '÷', "/");
    var s2 := if c == '÷' then "/" else s1;
    ReplaceSingle(s2[0], '−', "-");
    var s3 := if c == '−' then "-" else s2;
    ReplaceSingle(s3[0], '^', "**");
    var s4 := if c == '^' then "**" else s3;
    if c == '^' {
      ReplaceAbsent(s4, 'π', PiText);
      ReplaceAbsent(s4, 'e', EText);
    } else if c == 'π' {
      ReplaceSingle(c, 'π', PiText);
      ReplaceAbsent(PiText, 'e', EText);
    } else {
      ReplaceSingle(s4[0], 'π', PiText);
      ReplaceSingle(s4[0], 'e', EText);
    }
  }

  /** The sequence of replacements is the character-wise expansion. */
  lemma {:induction false} PrepareIsCharwise(s: string)
    ensures Prepare(s) == ExpandAll(s)
  {
    if |s| == 0 {
      assert Replace(s, '×', "*") == "";
    } else {
      assert s == [s[0]] + s[1..];
      PrepareAppend([s[0]], s[1..]);
      PrepareChar(s[0]);
      PrepareIsCharwise(s[1..]);
    }
  }

  lemma {:induction false} ExpandAllAppend(a: string, b: string)
    ensures ExpandAll(a + b) == ExpandAll(a) + ExpandAll(b)
  {
    if |a| == 0 {
      assert a + b == b;
    } else {
      assert (a + b)[1..] == a[1..] + b;
      ExpandAllAppend(a[1..], b);
    }
  }

  /** No rewritten character survives the preparation. */
  lemma {:induction false} PrepareRemovesSpecials(s: string)
    ensures forall i :: 0 <= i < |Prepare(s)| ==> !Special(Prepare(s)[i])
  {
    PrepareIsCharwise(s);
    ExpandAllHasNoSpecials(s);
  }

  lemma {:induction false} ExpandAllHasNoSpecials(s: string)
    ensures forall i :: 0 <= i < |ExpandAll(s)| ==> !Special(ExpandAll(s)[i])
  {
    if |s| > 0 {
      ExpandAllHasNoSpecials(s[1..]);
      var head, tail := Expand(s[0]), ExpandAll(s[1..]);
      assert ExpandAll(s) == head + tail;
      forall i | 0 <= i < |head + tail|
        ensures !Special((head + tail)[i])
      {
        if i >= |head| {
          assert (head + tail)[i] == tail[i - |head|];
        }
      }
    }
  }

  /** Text free of the rewritten characters passes through unchanged. */
  lemma {:induction false} ExpandAllKeepsPlainText(s: string)
    requires forall i :: 0 <= i < |s| ==> !Special(s[i])
    ensures ExpandAll(s) == s
  {
    if |s| > 0 {
      assert forall i :: 0 <= i < |s[1..]| ==> s[1..][i] == s[i + 1];
      ExpandAllKeepsPlainText(s[1..]);
      assert s == [s[0]] + s[1..];
    }
  }

  /** Preparing an already prepared expression changes nothing. */
  lemma PrepareIdempotent(s: string)
    ensures Prepare(Prepare(s)) == Prepare(s)
  {
    PrepareRemovesSpecials(s);
    PrepareIsCharwise(Prepare(s));
    ExpandAllKeepsPlainText(Prepare(s));
  }

  /** Each '^' adds one character and each pi or e adds sixteen; nothing
      else changes the length. */
  lemma {:induction false} PrepareLength(s: string)
    ensures |Prepare(s)| == |s| + Count(s, '^') + 16 * (Count(s, 'π') + Count(s, 'e'))
  {
    PrepareIsCharwise(s);
    ExpandAllLength(s);
  }

  lemma {:induction false} ExpandAllLength(s: string)
    ensures |ExpandAll(s)| == |s| + Count(s, '^') + 16 * (Count(s, 'π') + Count(s, 'e'))
  {
    if |s| > 0 {
      ExpandAllLength(s[1..]);
    }
  }

  /** The characters the expansions introduce. */
  const NumberChars: set<char> := {'*', '/', '-', '.', '0', '1', '2', '3', '4', '5', '6', '7', '8', '9'}

  /** Whether every character of `s` is in `cs`. */
  function Within(s: string, cs: set<char>): (r: bool)
    ensures r <==> forall i :: 0 <= i < |s| ==> s[i] in cs
  {
    if |s| == 0 then true
    else
      assert forall i :: 1 <= i < |s| ==> s[i] == s[1..][i - 1];
      s[0] in cs && Within(s[1..], cs)
  }

  /** A character expands to itself or to characters of numbers and
      operators. */
  lemma ExpandOutput(c: char)
    ensures forall i :: 0 <= i < |Expand(c)| ==> Expand(c)[i] == c || Expand(c)[i] in NumberChars
  {
    if c == 'π' {
      assert Expand(c) == PiText;
      assert Within(PiText, NumberChars);
    } else if c == 'e' {
      assert Expand(c) == EText;
      assert Within(EText, NumberChars);
    } else if c == '^' {
      assert Expand(c) == "**";
    } else {
      assert |Expand(c)| == 1;
    }
  }

  lemma {:induction false} CountAbsent(s: string, ch: char)
    requires ch !in s
    ensures Count(s, ch) == 0
  {
    if |s| > 0 {
      assert forall i :: 0 <= i < |s[1..]| ==> s[1..][i] == s[i + 1];
      CountAbsent(s[1..], ch);
    }
  }

  /** The rewriting keeps every other character: the parentheses in
      particular are neither added nor removed. */
  lemma {:induction false} ExpandAllKeepsCount(s: string, ch: char)
    requires !Special(ch) && ch !in NumberChars
    ensures Count(ExpandAll(s), ch) == Count(s, ch)
  {
    if |s| > 0 {
      ExpandAllKeepsCount(s[1..], ch);
      CountAppend(Expand(s[0]), ExpandAll(s[1..]), ch);
      if Special(s[0]) {
        ExpandOutput(s[0]);
        CountAbsent(Expand(s[0]), ch);
      } else {
        assert Expand(s[0]) == [s[0]];
        assert Count([s[0]], ch) == (if s[0] == ch then 1 else 0) + Count([s[0]][1..], ch);
      }
    }
  }

  /** The 'e' inside a function name is rewritten too: "exp(1)" loses the
      function it names. */
  lemma PrepareBreaksExp()
    ensures Prepare("exp(1)") == EText + "xp(1)"
  {
    PrepareIsCharwise("exp(1)");
    assert "exp(1)" == ['e'] + "xp(1)";
    ExpandAllKeepsPlainText("xp(1)");
    assert "exp(1)"[1..] == "xp(1)";
  }

  // ---- Corrected preparation: 'e' as a constant only ----

  predicate IsLetter(c: char)
  {
    ('a' <= c <= 'z') || ('A' <= c <= 'Z')
  }

  /** Replaces an 'e' only where it stands alone: not preceded or followed by
      a letter.  `afterLetter` says whether the character before `s` was one. */
  function ReplaceConstantE(s: string, afterLetter: bool): string
  {
    if |s| == 0 then ""
    else
      var alone := s[0] == 'e' && !afterLetter && !(|s| > 1 && IsLetter(s[1]));
      (if alone then EText else [s[0]]) + ReplaceConstantE(s[1..], IsLetter(s[0]))
  }

  /** The evidently intended preparation: the same operator replacements,
      then 'e' replaced only where it is the constant. */
  function PrepareWords(s: string): string
  {
    ReplaceConstantE(ReplaceOperators(s), false)
  }

  /** Text without operator signs or pi is left alone by the operator
      replacements. */
  lemma ReplaceOperatorsKeepsPlain(s: string)
    requires '×' !in s && '÷' !in s && '−' !in s && '^' !in s && 'π' !in s
    ensures ReplaceOperators(s) == s
  {
    ReplaceAbsent(s, '×', "*");
    ReplaceAbsent(s, '÷', "/");
    ReplaceAbsent(s, '−', "-");
    ReplaceAbsent(s, '^', "**");
    ReplaceAbsent(s, 'π', PiText);
  }

  /** Every 'e' of `s` is a lone one: no letter on either side.
      `afterLetter` says whether the character before `s` is a letter. */
  predicate LoneEs(s: string, afterLetter: bool)
  {
    || |s| == 0
    || (&& (s[0] == 'e' ==> !afterLetter && !(|s| > 1 && IsLetter(s[1])))
        && LoneEs(s[1..], IsLetter(s[0])))
  }

  /** Every 'e' of `s` is part of a word: a letter on at least one side. */
  predicate WordEs(s: string, afterLetter: bool)
  {
    || |s| == 0
    || (&& (s[0] == 'e' ==> afterLetter || (|s| > 1 && IsLetter(s[1])))
        && WordEs(s[1..], IsLetter(s[0])))
  }

  /** Where every 'e' stands alone the corrected rewriting agrees with the
      original one. */
  lemma {:induction false} ConstantEAgreesOnLoneEs(s: string, afterLetter: bool)
    requires LoneEs(s, afterLetter)
    ensures ReplaceConstantE(s, afterLetter) == Replace(s, 'e', EText)
  {
    if |s| > 0 {
      ConstantEAgreesOnLoneEs(s[1..], IsLetter(s[0]));
    }
  }

  /** Where every 'e' belongs to a word the corrected rewriting leaves the
      'e's alone. */
  lemma {:induction false} ConstantEKeepsWords(s: string, afterLetter: bool)
    requires WordEs(s, afterLetter)
    ensures ReplaceConstantE(s, afterLetter) == s
  {
    if |s| > 0 {
      assert forall i :: 0 <= i < |s[1..]| ==> s[1..][i] == s[i + 1];
      ConstantEKeepsWords(s[1..], IsLetter(s[0]));
      assert s == [s[0]] + s[1..];
    }
  }

  lemma ExpIsAWord()
    ensures WordEs("exp(1)", false)
  {
    var s := "exp(1)";
    assert s[1..] == "xp(1)" && s[2..] == "p(1)" && s[3..] == "(1)" && s[4..] == "1)" && s[5..] == ")" && s[6..] == "";
    assert s[1..][1..] == s[2..] && s[2..][1..] == s[3..] && s[3..][1..] == s[4..] && s[4..][1..] == s[5..] && s[5..][1..] == s[6..];
    assert WordEs(s[6..], false);
    assert WordEs(s[5..], false);
    assert WordEs(s[4..], false);
    assert WordEs(s[3..], true);
    assert WordEs(s[2..], true);
    assert WordEs(s[1..], true);
    assert s[0] == 'e' && IsLetter(s[1]);
  }

  /** The corrected preparation keeps "exp(1)". */
  lemma PrepareWordsKeepsExp()
    ensures PrepareWords("exp(1)") == "exp(1)"
  {
    ReplaceOperatorsKeepsPlain("exp(1)");
    ExpIsAWord();
    ConstantEKeepsWords("exp(1)", false);
  }

  /** The corrected preparation still expands a lone e. */
  lemma PrepareWordsExpandsConstant()
    ensures PrepareWords("2*e") == "2*" + EText
  {
    ReplaceOperatorsKeepsPlain("2*e");
    LoneConstant();
  }

  lemma LoneConstant()
    ensures ReplaceConstantE("2*e", false) == "2*" + EText
  {
    var s := "2*e";
    assert s[1..] == "*e" && s[1..][1..] == "e" && "e"[1..] == "";
    assert ReplaceConstantE("e", false) == EText;
    assert ReplaceConstantE(s[1..], false) == "*" + EText;
  }

  // ---- Input validation ----

  // The characters `validate_scientific_input` accepts besides whitespace:
  // the set of characters of "0123456789+-*/().^πe sincotan lnogexpqrtfacbsmodMRC".
  const Allowed: set<char> :=
    {'0', '1', '2', '3', '4', '5', '6', '7', '8', '9', '+', '-', '*', '/', '(', ')', '.', '^', 'π', 'e', ' ',
     's', 'i', 'n', 'c', 'o', 't', 'a', 'l', 'g', 'x', 'p', 'q', 'r', 'f', 'b', 'm', 'd', 'M', 'R', 'C'}

  /** Python's `str.isspace` on one character. */
  predicate IsSpace(c: char)
  {
    || ('\t' <= c <= '\r')
    || ('\U{1C}' <= c <= '\U{1F}')
    || c == ' ' || c == '\U{85}' || c == '\U{A0}' || c == '\U{1680}'
    || ('\U{2000}' <= c <= '\U{200A}')
    || c == '\U{2028}' || c == '\U{2029}' || c == '\U{202F}' || c == '\U{205F}' || c == '\U{3000}'
  }

  predicate Acceptable(c: char)
  {
    c in Allowed || IsSpace(c)
  }

  /** The character scan of the validator, one character at a time. */
  function AllAcceptable(s: string): (r: bool)
    ensures r <==> forall i :: 0 <= i < |s| ==> Acceptable(s[i])
  {
    if |s| == 0 then true
    else
      assert forall i :: 1 <= i < |s| ==> s[i] == s[1..][i - 1];
      Acceptable(s[0]) && AllAcceptable(s[1..])
  }

  /** `validate_scientific_input`: equal numbers of '(' and ')', and only
      accepted characters. */
  function Validate(s: string): (r: bool)
    ensures r <==> Count(s, '(') == Count(s, ')') && forall i :: 0 <= i < |s| ==> Acceptable(s[i])
  {
    if Count(s, '(') != Count(s, ')') then false
    else AllAcceptable(s)
  }

  /** Only the numbers of parentheses are compared, not their nesting. */
  lemma ValidateCountsOnly()
    ensures Validate(")(")
    ensures !Validate("(()")
  {
    assert ")("[1..] == "(" && "("[1..] == "";
    assert "(()"[1..] == "()" && "()"[1..] == ")" && ")"[1..] == "";
  }

  /** A character outside the accepted set makes any input invalid. */
  lemma ValidateRejectsTimesSign(a: string, b: string)
    ensures !Validate(a + "×" + b)
  {
    assert (a + "×" + b)[|a|] == '×';
    assert !Acceptable('×');
  }

  /** Wrapping an input in one more pair of parentheses does not change its
      validity. */
  lemma ValidateWrap(s: string)
    ensures Validate("(" + s + ")") <==> Validate(s)
  {
    var w := "(" + s + ")";
    CountAppend("(" + s, ")", '(');
    CountAppend("(" + s, ")", ')');
    CountAppend("(", s, '(');
    CountAppend("(", s, ')');
    assert "("[1..] == "" && ")"[1..] == "";
    assert forall i :: 0 <= i < |s| ==> w[i + 1] == s[i];
    assert w[0] == '(' && w[|w| - 1] == ')';
    assert forall i :: 0 <= i < |w| ==> (i == 0 || i == |w| - 1 || w[i] == s[i - 1]);
  }

  /** Two valid inputs put together are valid. */
  lemma ValidateConcat(a: string, b: string)
    requires Validate(a) && Validate(b)
    ensures Validate(a + b)
  {
    CountAppend(a, b, '(');
    CountAppend(a, b, ')');
    assert forall i :: 0 <= i < |a + b| ==> (a + b)[i] == if i < |a| then a[i] else b[i - |a|];
  }

  /** Preparing a valid expression gives a valid expression: the
      replacements only introduce digits, '.', '*', '/' and '-'. */
  lemma PrepareKeepsValid(s: string)
    requires Validate(s)
    ensures Validate(Prepare(s))
  {
    PrepareIsCharwise(s);
    ExpandAllKeepsCount(s, '(');
    ExpandAllKeepsCount(s, ')');
    ExpandAllAcceptable(s);
  }

  lemma {:induction false} ExpandAllAcceptable(s: string)
    requires forall i :: 0 <= i < |s| ==> Acceptable(s[i])
    ensures forall i :: 0 <= i < |ExpandAll(s)| ==> Acceptable(ExpandAll(s)[i])
  {
    if |s| > 0 {
      assert forall i :: 0 <= i < |s[1..]| ==> s[1..][i] == s[i + 1];
      ExpandAllAcceptable(s[1..]);
      var head, tail := Expand(s[0]), ExpandAll(s[1..]);
      ExpandOutput(s[0]);
      assert NumberChars <= Allowed;
      forall i | 0 <= i < |head + tail|
        ensures Acceptable((head + tail)[i])
      {
        if i >= |head| {
          assert (head + tail)[i] == tail[i - |head|];
        }
      }
    }
  }
}

=== FILE: keypad.dfy ===
/** The basic keypad of `FinanceCalculator` (main.py): the display and
    pending-operation state and what each key press does to it
    (`button_click`), with the arithmetic of `calculate`.

    Python's `float(text)` and `str(number)` are passed in as a `Codec`: the
    model states what the keypad does with their results, not how decimal
    text is read or printed. */
module Keypad {
  import opened Wrappers
  import Expressions

  /** Reading a number from the display (`float`) and writing one (`str`). */
  datatype Codec = Codec(parse: string -> Option<real>, render: real -> string)

  /** The calculator state of main.py: the display text, `current_input`,
      `operator`, `first_number` and `should_reset_display`. */
  datatype State = State(
    display: string,
    currentInput: string,
    operator: Option<string>,
    firstNumber: Option<real>,
    shouldReset: bool)

  /** The state of a fresh calculator, also the state after 'C'. */
  const Initial: State := State("0", "", None, None, false)

  /** The four operator keys. */
  const Operators: seq<string> := ["÷", "×", "−", "+"]

  const ParseMessage: string := "could not convert string to float"

  // ---- calculate ----

  /** `calculate`: exact arithmetic on the two operands; division by zero
      raises ValueError, and an unknown operator yields the second operand. */
  function Calculate(first: real, second: real, op: string): (r: Result<real>)
    ensures r.Failure? <==> op == "÷" && second == 0.0
    ensures r.Failure? ==> r.error == ValueError("Division by zero")
    ensures r.Success? && op == "÷" ==> r.value * second == first
    ensures op !in Operators ==> r == Success(second)
  {
    if op == "+" then Success(first + second)
    else if op == "−" then Success(first - second)
    else if op == "×" then Success(first * second)
    else if op == "÷" then
      if second == 0.0 then Failure(ValueError("Division by zero")) else Success(first / second)
    else Success(second)
  }

  /** Subtraction undoes addition and addition undoes subtraction. */
  lemma CalculateAddSubtract(a: real, b: real)
    ensures Calculate(a, b, "+").Success? && Calculate(Calculate(a, b, "+").value, b, "−") == Success(a)
    ensures Calculate(a, b, "−").Success? && Calculate(Calculate(a, b, "−").value, b, "+") == Success(a)
  {
  }

  /** Division undoes multiplication by a nonzero operand. */
  lemma CalculateMultiplyDivide(a: real, b: real)
    requires b != 0.0
    ensures Calculate(a, b, "×").Success? && Calculate(Calculate(a, b, "×").value, b, "÷") == Success(a)
  {
    var p := a * b;
    assert Calculate(a, b, "×") == Success(p);
    assert p / b == a;
  }

  lemma MultiplyComputes(x: real, y: real)
    ensures Calculate(x, y, "×") == Success(x * y)
  {
  }

  /** Multiplication undoes division by a nonzero operand. */
  lemma CalculateDivideMultiply(a: real, b: real)
    requires b != 0.0
    ensures Calculate(a, b, "÷").Success? && Calculate(Calculate(a, b, "÷").value, b, "×") == Success(a)
  {
    var q := a / b;
    assert Calculate(a, b, "÷") == Success(q);
    MultiplyComputes(q, b);
    assert q * b == a;
  }

  // ---- button_click ----

  /** Python's truth value of `self.operator`: set and not empty. */
  predicate Pending(k: State)
  {
    k.operator.Some? && k.operator.value != ""
  }

  /** An operator key: capture the first operand, or finish the pending
      operation when a second operand has been typed, then remember the
      operator.  A display that does not parse, or a pending division by
      zero, raises before anything changes. */
  function PressOperator(k: State, op: string, codec: Codec): (r: Result<State>)
    requires op in Operators
    ensures r.Success? ==> r.value.operator == Some(op) && r.value.shouldReset && r.value.firstNumber.Some?
    ensures r.Success? && k.firstNumber.None? ==> r.value.firstNumber == codec.parse(k.display)
    ensures r.Failure? ==> r.error.ValueError?
    ensures r.Failure? <==>
              (|| (codec.parse(k.display).None? && (k.firstNumber.None? || (Pending(k) && !k.shouldReset)))
               || (&& k.firstNumber.Some? && Pending(k) && !k.shouldReset && codec.parse(k.display).Some?
                   && Calculate(k.firstNumber.value, codec.parse(k.display).value, k.operator.value).Failure?))
    ensures r.Success? && !(k.firstNumber.Some? && Pending(k) && !k.shouldReset) ==>
              r.value == k.(firstNumber := (if k.firstNumber.None? then codec.parse(k.display) else k.firstNumber),
                            operator := Some(op), shouldReset := true)
    ensures r.Success? && k.firstNumber.Some? && Pending(k) && !k.shouldReset ==>
              (&& codec.parse(k.display).Some?
               && Calculate(k.firstNumber.value, codec.parse(k.display).value, k.operator.value).Success?
               && r.value == k.(display := codec.render(r.value.firstNumber.value),
                                firstNumber := Some(Calculate(k.firstNumber.value, codec.parse(k.display).value,
                                                              k.operator.value).value),
                                operator := Some(op), shouldReset := true))
  {
    if k.firstNumber.None? then
      match codec.parse(k.display)
      case None => Failure(ValueError(ParseMessage))
      case Some(v) => Success(k.(firstNumber := Some(v), operator := Some(op), shouldReset := true))
    else if Pending(k) && !k.shouldReset then
      match codec.parse(k.display)
      case None => Failure(ValueError(ParseMessage))
      case Some(second) =>
        var result :- Calculate(k.firstNumber.value, second, k.operator.value);
        Success(k.(display := codec.render(result), firstNumber := Some(result), operator := Some(op), shouldReset := true))
    else
      Success(k.(operator := Some(op), shouldReset := true))
  }

  /** The '=' key: with an operation pending, show its result and clear it;
      when the operand does not parse or the operation raises, show "Error"
      and keep everything else.  Without a pending operation nothing
      happens. */
  function PressEquals(k: State, codec: Codec): (r: State)
    ensures !(Pending(k) && k.firstNumber.Some?) ==> r == k
    ensures r.currentInput == k.currentInput
    ensures Pending(k) && k.firstNumber.Some? ==>
              r.display == "Error" || (r.operator.None? && r.firstNumber.None? && r.shouldReset)
    ensures (&& Pending(k) && k.firstNumber.Some? && codec.parse(k.display).Some?
             && Calculate(k.firstNumber.value, codec.parse(k.display).value, k.operator.value).Success?) ==>
              r == k.(display := codec.render(Calculate(k.firstNumber.value, codec.parse(k.display).value,
                                                        k.operator.value).value),
                      firstNumber := None, operator := None, shouldReset := true)
    ensures (&& Pending(k) && k.firstNumber.Some?
             && (|| codec.parse(k.display).None?
                 || Calculate(k.firstNumber.value, codec.parse(k.display).value, k.operator.value).Failure?)) ==>
              r == k.(display := "Error")
  {
    if Pending(k) && k.firstNumber.Some? then
      match codec.parse(k.display)
      case None => k.(display := "Error")
      case Some(second) =>
        match Calculate(k.firstNumber.value, second, k.operator.value)
        case Failure(_) => k.(display := "Error")
        case Success(result) =>
          k.(display := codec.render(result), firstNumber := None, operator := None, shouldReset := true)
    else k
  }

  /** The '.' key: start "0." after a result, otherwise append a point unless
      the display already has one. */
  function PressDot(k: State): (r: State)
    ensures '.' in r.display
    ensures Expressions.Count(k.display, '.') <= 1 ==> Expressions.Count(r.display, '.') <= 1
    ensures r.operator == k.operator && r.firstNumber == k.firstNumber && !r.shouldReset
    ensures r.currentInput == k.currentInput
    ensures r.display == if k.shouldReset then "0." else if '.' in k.display then k.display else k.display + "."
  {
    if k.shouldReset then
      assert "0."[1..] == "." && "."[1..] == "";
      k.(display := "0.", shouldReset := false)
    else if '.' !in k.display then
      Expressions.CountAbsent(k.display, '.');
      Expressions.CountAppend(k.display, ".", '.');
      assert "."[1..] == "";
      assert (k.display + ".")[|k.display|] == '.';
      k.(display := k.display + ".")
    else k
  }

  /** Any other key is typed: it replaces a result or a lone "0", and is
      appended otherwise. */
  function PressDigit(k: State, key: string): (r: State)
    ensures r.display == (if k.shouldReset || k.display == "0" then "" else k.display) + key
    ensures r.operator == k.operator && r.firstNumber == k.firstNumber && !r.shouldReset
  {
    if k.shouldReset || k.display == "0" then k.(display := key, shouldReset := false)
    else k.(display := k.display + key)
  }

  /** Applies `f` to the displayed number; a display that does not parse is
      left as it is. */
  function Transform(k: State, codec: Codec, f: real -> real): (r: State)
    ensures r.operator == k.operator && r.firstNumber == k.firstNumber && r.shouldReset == k.shouldReset
    ensures codec.parse(k.display).None? ==> r == k
    ensures codec.parse(k.display).Some? ==> r.display == codec.render(f(codec.parse(k.display).value))
  {
    match codec.parse(k.display)
    case None => k
    case Some(v) => k.(display := codec.render(f(v)))
  }

  /** `button_click`: one key press.  A failure is an exception escaping the
      handler, which happens before any change to the state. */
  function Press(k: State, key: string, codec: Codec): (r: Result<State>)
    ensures r.Failure? ==> key in Operators && r.error.ValueError?
    ensures r.Success? && key != "C" ==> r.value.currentInput == k.currentInput
  {
    if key == "C" then Success(Initial)
    else if key in Operators then PressOperator(k, key, codec)
    else if key == "=" then Success(PressEquals(k, codec))
    else if key == "±" then Success(Transform(k, codec, v => -v))
    else if key == "%" then Success(Transform(k, codec, v => v / 100.0))
    else if key == "." then Success(PressDot(k))
    else Success(PressDigit(k, key))
  }

  /** A sequence of key presses, stopping at the first that raises. */
  function PressAll(k: State, keys: seq<string>, codec: Codec): (r: Result<State>)
    ensures |keys| == 0 ==> r == Success(k)
    ensures r.Failure? ==> exists i :: 0 <= i < |keys| && keys[i] in Operators
    decreases |keys|
  {
    if |keys| == 0 then Success(k)
    else
      match Press(k, keys[0], codec)
      case Failure(e) => Failure(e)
      case Success(k1) =>
        var r := PressAll(k1, keys[1..], codec);
        assert r.Failure? ==> exists i :: 0 <= i < |keys[1..]| && keys[1..][i] in Operators;
        assert forall i :: 0 <= i < |keys[1..]| ==> keys[1..][i] == keys[i + 1];
        r
  }

  // ---- Properties of the keypad ----

  /** 'C' restores the initial state from any state. */
  lemma ClearResets(k: State, codec: Codec)
    ensures Press(k, "C", codec) == Success(Initial)
  {
  }

  /** The invariant of the pending operation: an operator is remembered
      exactly when a first operand is, and it is one of the four. */
  predicate Consistent(k: State)
  {
    && (k.operator.Some? <==> k.firstNumber.Some?)
    && (k.operator.Some? ==> k.operator.value in Operators)
  }

  /** Every key press that does not raise keeps the invariant. */
  lemma PressKeepsConsistent(k: State, key: string, codec: Codec)
    requires Consistent(k)
    requires Press(k, key, codec).Success?
    ensures Consistent(Press(k, key, codec).value)
  {
    assert Consistent(Initial);
  }

  /** Only an operator key can raise; '=' never does, whatever the display. */
  lemma EqualsNeverRaises(k: State, codec: Codec)
    ensures Press(k, "=", codec).Success?
  {
  }

  /** '=' with nothing pending changes nothing. */
  lemma EqualsWithoutOperatorIsNoOp(k: State, codec: Codec)
    requires k.operator.None? || k.firstNumber.None?
    ensures Press(k, "=", codec) == Success(k)
  {
  }

  /** Pressing '=' again repeats nothing: after a result nothing is pending,
      and after "Error" the display still does not parse. */
  lemma EqualsIsIdempotent(k: State, codec: Codec)
    requires codec.parse("Error").None?
    ensures Press(Press(k, "=", codec).value, "=", codec) == Press(k, "=", codec)
  {
  }

  /** Two operator keys in a row: the second only replaces the operator. */
  lemma OperatorChangesItsMind(k: State, op1: string, op2: string, codec: Codec)
    requires op1 in Operators && op2 in Operators
    requires Press(k, op1, codec).Success?
    ensures Press(Press(k, op1, codec).value, op2, codec)
            == Success(Press(k, op1, codec).value.(operator := Some(op2)))
  {
  }

  /** With an operation pending and a second operand typed, an operator key
      carries out the pending operation and keeps its result as the new
      first operand. */
  lemma OperatorChains(k: State, op: string, codec: Codec, second: real)
    requires op in Operators && Consistent(k) && k.firstNumber.Some? && !k.shouldReset
    requires codec.parse(k.display) == Some(second)
    requires Calculate(k.firstNumber.value, second, k.operator.value).Success?
    ensures Press(k, op, codec).Success?
    ensures Press(k, op, codec).value.firstNumber == Some(Calculate(k.firstNumber.value, second, k.operator.value).value)
    ensures Press(k, op, codec).value.display == codec.render(Press(k, op, codec).value.firstNumber.value)
  {
  }

  /** The '.' key never makes a second decimal point. */
  lemma DotKeepsSingleDot(k: State, codec: Codec)
    requires Expressions.Count(k.display, '.') <= 1
    ensures Press(k, ".", codec).Success?
    ensures Expressions.Count(Press(k, ".", codec).value.display, '.') <= 1
    ensures '.' in Press(k, ".", codec).value.display
  {
  }

  /** '±' twice shows the original number again, when the codec reads back
      what it writes. */
  lemma SignTwice(k: State, codec: Codec, v: real)
    requires codec.parse(k.display) == Some(v)
    requires codec.parse(codec.render(-v)) == Some(-v)
    ensures Press(Press(k, "±", codec).value, "±", codec) == Success(k.(display := codec.render(v)))
  {
    assert -(-v) == v;
  }

  /** '=' and an operator key finish a pending operation the same way: both
      show its result.  '=' then forgets it, the operator key keeps it as
      the next first operand. */
  lemma EqualsAgreesWithChaining(k: State, op: string, codec: Codec)
    requires op in Operators && Pending(k) && k.firstNumber.Some? && !k.shouldReset
    requires codec.parse(k.display).Some?
    requires Calculate(k.firstNumber.value, codec.parse(k.display).value, k.operator.value).Success?
    ensures Press(k, "=", codec).Success? && Press(k, op, codec).Success?
    ensures Press(k, "=", codec).value.display == Press(k, op, codec).value.display
    ensures Press(k, "=", codec).value.firstNumber.None?
    ensures Press(k, op, codec).value.firstNumber
         == Some(Calculate(k.firstNumber.value, codec.parse(k.display).value, k.operator.value).value)
  {
  }

  /** Pressing '.' twice is pressing it once. */
  lemma DotIsIdempotent(k: State, codec: Codec)
    ensures Press(k, ".", codec).Success?
    ensures Press(Press(k, ".", codec).value, ".", codec) == Press(k, ".", codec)
  {
  }

  /** '±' and '%' only touch the display. */
  lemma SignAndPercentOnlyTouchDisplay(k: State, codec: Codec, key: string)
    requires key == "±" || key == "%"
    ensures Press(k, key, codec).Success?
    ensures Press(k, key, codec).value == k.(display := Press(k, key, codec).value.display)
  {
  }

  /** A digit key, as a one-character string. */
  predicate DigitKey(key: string)
  {
    |key| == 1 && '0' <= key[0] <= '9'
  }

  /** A digit key takes the typing branch of `button_click`. */
  lemma DigitKeyTypes(k: State, key: string, codec: Codec)
    requires DigitKey(key)
    ensures Press(k, key, codec) == Success(PressDigit(k, key))
  {
    assert forall op :: op in Operators ==> op[0] !in "0123456789";
    assert key[0] in "0123456789";
    assert key !in Operators;
    assert key != "C" && key != "=" && key != "±" && key != "%" && key != "." by {
      assert "C"[0] == 'C' && "="[0] == '=' && "±"[0] == '±' && "%"[0] == '%' && "."[0] == '.';
    }
  }

  /** The keys that type the digit string `ds`. */
  function Keys(ds: string): (keys: seq<string>)
    ensures |keys| == |ds|
    ensures forall i :: 0 <= i < |ds| ==> keys[i] == [ds[i]]
  {
    if |ds| == 0 then [] else [[ds[0]]] + Keys(ds[1..])
  }

  predicate IsDigits(ds: string)
  {
    forall i :: 0 <= i < |ds| ==> '0' <= ds[i] <= '9'
  }

  /** Running a key sequence whose first key succeeds continues from its state. */
  lemma PressAllFirst(k: State, keys: seq<string>, codec: Codec, k1: State)
    requires |keys| > 0 && Press(k, keys[0], codec) == Success(k1)
    ensures PressAll(k, keys, codec) == PressAll(k1, keys[1..], codec)
  {
  }

  /** One digit typed after a number that is being entered is appended. */
  lemma TypeOneDigit(k: State, d: char, codec: Codec)
    requires '0' <= d <= '9'
    requires !k.shouldReset && |k.display| > 0 && k.display != "0"
    ensures Press(k, [d], codec) == Success(k.(display := k.display + [d]))
    ensures Keys([d]) == [[d]]
  {
    DigitKeyTypes(k, [d], codec);
  }

  /** Digits typed after a number that is being entered are appended to it. */
  lemma {:induction false} TypingAppends(k: State, ds: string, codec: Codec)
    requires IsDigits(ds)
    requires !k.shouldReset && |k.display| > 0 && k.display != "0"
    ensures PressAll(k, Keys(ds), codec) == Success(k.(display := k.display + ds))
    decreases |ds|
  {
    if |ds| > 0 {
      var key := [ds[0]];
      var k1 := k.(display := k.display + key);
      TypeOneDigit(k, ds[0], codec);
      PressAllFirst(k, Keys(ds), codec, k1);
      assert Keys(ds)[1..] == Keys(ds[1..]);
      assert IsDigits(ds[1..]);
      TypingAppends(k1, ds[1..], codec);
      assert k1.display + ds[1..] == k.display + ds;
    } else {
      assert k.display + ds == k.display;
    }
  }

  /** Typing a number without a leading zero on a fresh calculator shows
      exactly that number. */
  lemma TypingANumber(ds: string, codec: Codec)
    requires IsDigits(ds) && |ds| > 0 && ds[0] != '0'
    ensures PressAll(Initial, Keys(ds), codec) == Success(Initial.(display := ds))
  {
    var key := [ds[0]];
    assert Keys(ds)[0] == key && Keys(ds)[1..] == Keys(ds[1..]);
    DigitKeyTypes(Initial, key, codec);
    var k1 := Initial.(display := key);
    assert Press(Initial, key, codec) == Success(k1);
    assert key != "0";
    TypingAppends(k1, ds[1..], codec);
    assert key + ds[1..] == ds;
  }

  /** 12 + 3 = shows 15. */
  lemma AdditionScenario(codec: Codec)
    requires codec.parse("12") == Some(12.0) && codec.parse("3") == Some(3.0)
    ensures PressAll(Initial, ["1", "2", "+", "3", "="], codec)
            == Success(State(codec.render(15.0), "", None, None, true))
  {
    var k2 := Initial.(display := "12");
    DigitKeyTypes(Initial, "1", codec);
    DigitKeyTypes(Initial.(display := "1"), "2", codec);
    assert "1" != "0" && "1" + "2" == "12";
    assert Press(Initial, "1", codec) == Success(Initial.(display := "1"));
    assert Press(Initial.(display := "1"), "2", codec) == Success(k2);
    var k3 := k2.(firstNumber := Some(12.0), operator := Some("+"), shouldReset := true);
    assert Press(k2, "+", codec) == Success(k3);
    var k4 := k3.(display := "3", shouldReset := false);
    DigitKeyTypes(k3, "3", codec);
    assert Press(k3, "3", codec) == Success(k4);
    assert Press(k4, "=", codec) == Success(State(codec.render(15.0), "", None, None, true));
    var keys := ["1", "2", "+", "3", "="];
    assert keys[1..] == ["2", "+", "3", "="] && keys[1..][1..] == ["+", "3", "="];
    assert keys[1..][1..][1..] == ["3", "="] && keys[1..][1..][1..][1..] == ["="];
    assert ["="][1..] == [];
  }

  /** 8 ÷ 0 = shows "Error" and keeps the division pending. */
  lemma DivisionByZeroScenario(codec: Codec)
    requires codec.parse("8") == Some(8.0) && codec.parse("0") == Some(0.0)
    ensures PressAll(Initial, ["8", "÷", "0", "="], codec)
            == Success(State("Error", "", Some("÷"), Some(8.0), false))
  {
    var k1 := Initial.(display := "8");
    DigitKeyTypes(Initial, "8", codec);
    assert Press(Initial, "8", codec) == Success(k1);
    var k2 := k1.(firstNumber := Some(8.0), operator := Some("÷"), shouldReset := true);
    assert Press(k1, "÷", codec) == Success(k2);
    var k3 := k2.(display := "0", shouldReset := false);
    DigitKeyTypes(k2, "0", codec);
    assert Press(k2, "0", codec) == Success(k3);
    assert Press(k3, "=", codec) == Success(k3.(display := "Error"));
    var keys := ["8", "÷", "0", "="];
    assert keys[1..] == ["÷", "0", "="] && keys[1..][1..] == ["0", "="];
    assert keys[1..][1..][1..] == ["="] && ["="][1..] == [];
  }
}

=== FILE: newton.dfy ===
/** The bounded Newton–Raphson driver shared by the IRR and yield-to-maturity
    searches.

  Both searches run the same loop: at most `MaxIterations` times, test the
  current trial value, stop if it is close enough, stop if the derivative is
  too flat (or the next trial leaves a sanity range), otherwise move to the
  next trial.  A `Step` says what one pass of the loop body decides about a
  trial value; `Find` runs the loop on a fuel budget.
 */
module Newton {
  import opened Wrappers

  /** The iteration cap of both root-finders. */
  const MaxIterations: nat := 100

  /** What one pass of the loop body decides about the current trial. */
  datatype Step =
    | Converged           // the residual is within tolerance: return the trial
    | GiveUp              // `break`: the search ends with None
    | Next(trial: real)   // continue with a new trial value
    | Raise(error: Error) // evaluating the residual or derivative raised

  /** The outcome of a search. */
  datatype Search =
    | Found(root: real)
    | NotFound
    | Raised(error: Error)

  /** Runs the loop for at most `fuel` passes starting at `start`. */
  function Find(step: real -> Step, start: real, fuel: nat): (r: Search)
    ensures r.Found? ==> step(r.root) == Converged
    ensures r.Raised? ==> exists x :: step(x) == Raise(r.error)
    ensures fuel == 0 ==> r == NotFound
    decreases fuel
  {
    if fuel == 0 then NotFound
    else
      match step(start)
      case Converged => Found(start)
      case GiveUp => NotFound
      case Raise(e) => Raised(e)
      case Next(t) => Find(step, t, fuel - 1)
  }

  /** The trial value after `k` passes of the loop, counted forward from the
      start as the loop variable evolves, or None once the loop has left. */
  function Trial(step: real -> Step, start: real, k: nat): Option<real>
  {
    if k == 0 then Some(start)
    else
      match Trial(step, start, k - 1)
      case None => None
      case Some(x) => if step(x).Next? then Some(step(x).trial) else None
  }

  /** Moving the start one step forward shifts every later trial by one. */
  lemma {:induction false} TrialShift(step: real -> Step, start: real, k: nat)
    requires step(start).Next?
    ensures Trial(step, start, k + 1) == Trial(step, step(start).trial, k)
    decreases k
  {
    if k > 0 {
      TrialShift(step, start, k - 1);
    }
  }

  /** A start that does not step forward has no later trials. */
  lemma {:induction false} TrialStops(step: real -> Step, start: real, k: nat)
    requires !step(start).Next?
    ensures Trial(step, start, k + 1) == None
    decreases k
  {
    if k > 0 {
      TrialStops(step, start, k - 1);
    }
  }

  /** After `k` passes the search behaves as if it had been started at the
      `k`-th trial with the remaining budget. */
  lemma {:induction false} FindResume(step: real -> Step, start: real, fuel: nat, k: nat, y: real)
    requires k <= fuel
    requires Trial(step, start, k) == Some(y)
    ensures Find(step, start, fuel) == Find(step, y, fuel - k)
    decreases k
  {
    if k > 0 {
      if step(start).Next? {
        TrialShift(step, start, k - 1);
        FindResume(step, step(start).trial, fuel - 1, k - 1, y);
      } else {
        TrialStops(step, start, k - 1);
      }
    }
  }

  /** The search finds `y` exactly when `y` is a trial reached within the
      budget whose test succeeds. */
  lemma {:induction false} FoundIffConvergedTrial(step: real -> Step, start: real, fuel: nat, y: real)
    ensures Find(step, start, fuel) == Found(y)
        <==> exists k :: 0 <= k < fuel && Trial(step, start, k) == Some(y) && step(y) == Converged
    decreases fuel
  {
    if Find(step, start, fuel) == Found(y) {
      if step(start) == Converged {
        assert Trial(step, start, 0) == Some(y);
      } else {
        var t := step(start).trial;
        FoundIffConvergedTrial(step, t, fuel - 1, y);
        var k :| 0 <= k < fuel - 1 && Trial(step, t, k) == Some(y) && step(y) == Converged;
        TrialShift(step, start, k);
      }
    }
    if exists k :: 0 <= k < fuel && Trial(step, start, k) == Some(y) && step(y) == Converged {
      var k :| 0 <= k < fuel && Trial(step, start, k) == Some(y) && step(y) == Converged;
      FindResume(step, start, fuel, k, y);
    }
  }

  /** The search raises `e` exactly when some trial reached within the budget
      makes the loop body raise `e`. */
  lemma {:induction false} RaisedIffRaisingTrial(step: real -> Step, start: real, fuel: nat, e: Error)
    ensures Find(step, start, fuel) == Raised(e)
        <==> exists k :: 0 <= k < fuel && Trial(step, start, k).Some? && step(Trial(step, start, k).value) == Raise(e)
    decreases fuel
  {
    if Find(step, start, fuel) == Raised(e) {
      if step(start) == Raise(e) {
        assert Trial(step, start, 0) == Some(start);
      } else {
        var t := step(start).trial;
        RaisedIffRaisingTrial(step, t, fuel - 1, e);
        var k :| 0 <= k < fuel - 1 && Trial(step, t, k).Some? && step(Trial(step, t, k).value) == Raise(e);
        TrialShift(step, start, k);
        assert Trial(step, start, k + 1) == Trial(step, t, k);
      }
    }
    if exists k :: 0 <= k < fuel && Trial(step, start, k).Some? && step(Trial(step, start, k).value) == Raise(e) {
      var k :| 0 <= k < fuel && Trial(step, start, k).Some? && step(Trial(step, start, k).value) == Raise(e);
      FindResume(step, start, fuel, k, Trial(step, start, k).value);
    }
  }

  /** A trial on which the loop gives up ends the search with None. */
  lemma GiveUpMeansNotFound(step: real -> Step, start: real, fuel: nat, k: nat, y: real)
    requires k < fuel
    requires Trial(step, start, k) == Some(y)
    requires step(y) == GiveUp
    ensures Find(step, start, fuel) == NotFound
  {
    FindResume(step, start, fuel, k, y);
  }

  /** A loop that is still running after the whole budget returns None. */
  lemma ExhaustedMeansNotFound(step: real -> Step, start: real, fuel: nat)
    requires Trial(step, start, fuel).Some?
    ensures Find(step, start, fuel) == NotFound
  {
    FindResume(step, start, fuel, fuel, Trial(step, start, fuel).value);
  }

  /** If every trial the loop moves to satisfies `inv`, a found root is either
      the start itself or satisfies `inv`. */
  lemma {:induction false} FoundKeepsInvariant(step: real -> Step, inv: real -> bool, start: real, fuel: nat)
    requires forall x :: step(x).Next? ==> inv(step(x).trial)
    ensures Find(step, start, fuel).Found? ==> Find(step, start, fuel).root == start || inv(Find(step, start, fuel).root)
    decreases fuel
  {
    if fuel > 0 && step(start).Next? {
      var t := step(start).trial;
      FoundKeepsInvariant(step, inv, t, fuel - 1);
    }
  }
}

=== FILE: realmath.dfy ===
/** Exact real arithmetic used by the financial formulas: integer powers,
    Python's `float ** int`, absolute value and sums of sequences. */
module RealMath {
  import opened Wrappers

  function Abs(x: real): (r: real)
    ensures r >= 0.0
    ensures r == x || r == -x
  {
    if x < 0.0 then -x else x
  }

  lemma MulNonnegative(p: real, q: real)
    requires p >= 0.0 && q >= 0.0
    ensures p * q >= 0.0
  {
  }

  lemma MulPositive(p: real, q: real)
    requires p > 0.0 && q > 0.0
    ensures p * q > 0.0
  {
  }

  lemma MulMonotone(a: real, b: real, v: real)
    requires a <= b && v >= 0.0
    ensures a * v <= b * v
  {
    MulNonnegative(b - a, v);
    assert b * v - a * v == (b - a) * v;
  }

  /** `x` raised to a natural power. */
  function Pow(x: real, n: nat): real
  {
    if n == 0 then 1.0 else x * Pow(x, n - 1)
  }

  lemma {:induction false} PowPositive(x: real, n: nat)
    requires x > 0.0
    ensures Pow(x, n) > 0.0
  {
    if n > 0 {
      PowPositive(x, n - 1);
    }
  }

  lemma {:induction false} PowNonzero(x: real, n: nat)
    requires x != 0.0
    ensures Pow(x, n) != 0.0
  {
    if n > 0 {
      PowNonzero(x, n - 1);
    }
  }

  /** A power vanishes exactly when a zero base is raised to a positive power. */
  lemma PowVanishes(x: real, n: nat)
    ensures Pow(x, n) == 0.0 <==> x == 0.0 && n >= 1
  {
    if x != 0.0 {
      PowNonzero(x, n);
    }
  }

  lemma {:induction false} PowOfOne(n: nat)
    ensures Pow(1.0, n) == 1.0
  {
    if n > 0 {
      PowOfOne(n - 1);
    }
  }

  /** `c` discounted over `k` periods at growth factor `x`: `c / x^k`. */
  function Discount(x: real, c: real, k: nat): real
    requires x != 0.0
  {
    PowNonzero(x, k);
    c / Pow(x, k)
  }

  /** Discounting a flow and compounding it again gives the flow back. */
  lemma DiscountRoundTrip(x: real, c: real, k: nat)
    requires x != 0.0
    ensures Discount(x, c, k) * Pow(x, k) == c
  {
    PowNonzero(x, k);
  }

  /** Python's `x ** n` for a float `x` and an int `n`: `0.0 ** 0` is 1.0 and
      a zero base with a negative exponent raises ZeroDivisionError. */
  function IntPow(x: real, n: int): (r: Result<real>)
    ensures r.Failure? <==> x == 0.0 && n < 0
    ensures r.Failure? ==> r.error == ZeroDivisionError
    ensures n >= 0 ==> r == Success(Pow(x, n))
    ensures r.Success? && n < 0 ==> r.value * Pow(x, -n) == 1.0
    ensures r.Success? ==> (r.value == 0.0 <==> x == 0.0 && n > 0)
  {
    PowVanishes(x, if n >= 0 then n else -n);
    if n >= 0 then Success(Pow(x, n))
    else if x == 0.0 then Failure(ZeroDivisionError)
    else
      PowNonzero(x, -n);
      Success(1.0 / Pow(x, -n))
  }

  /** Left-to-right sum of a sequence (Python's `sum`). */
  function Sum(xs: seq<real>): real
  {
    if |xs| == 0 then 0.0 else Sum(xs[..|xs| - 1]) + xs[|xs| - 1]
  }
}

=== FILE: scientific.dfy ===
/** The discrete parts of `ScientificCalculator` (scientific_calc.py): the
    integer factorial, the domain guards of the roots and logarithms, the
    memory register and the angle mode. */
module Scientific {
  import opened Wrappers

  // ---- Factorial ----

  /** `k!` on naturals. */
  function Fact(k: nat): (r: nat)
    ensures r >= 1
  {
    if k == 0 then 1 else k * Fact(k - 1)
  }

  const FactorialMessage: string := "Factorial is only defined for non-negative integers"

  /** Whether `n` equals `int(n)`; for the non-negative `n` this is asked
      of, `int` truncates to the floor. */
  predicate IsIntegral(n: real)
  {
    n == (n.Floor as real)
  }

  /** The largest C `long` on a platform where `long` is 64 bits wide:
      `math.factorial` refuses any larger argument with OverflowError. */
  const MaxLong: int := 9223372036854775807

  /** `factorial`: raises ValueError for a negative or fractional argument,
      OverflowError for a whole argument above `MaxLong`, and otherwise gives
      the factorial of its integer value. */
  function Factorial(n: real): (r: Result<nat>)
    ensures r.Failure? <==> n < 0.0 || !IsIntegral(n) || n.Floor > MaxLong
    ensures r.Failure? ==>
              r.error == (if n < 0.0 || !IsIntegral(n) then ValueError(FactorialMessage) else OverflowError)
    ensures r.Success? ==> r.value == Fact(n.Floor)
  {
    if n < 0.0 || !IsIntegral(n) then Failure(ValueError(FactorialMessage))
    else if n.Floor > MaxLong then Failure(OverflowError)
    else Success(Fact(n.Floor))
  }

  /** Every natural number up to `MaxLong` is accepted, and gets its factorial. */
  lemma FactorialOfNatural(k: nat)
    requires k <= MaxLong
    ensures Factorial(k as real) == Success(Fact(k))
  {
    assert (k as real).Floor == k;
  }

  /** Every whole number above `MaxLong` overflows. */
  lemma FactorialOverflows(k: nat)
    requires k > MaxLong
    ensures Factorial(k as real) == Failure(OverflowError)
  {
    assert (k as real).Floor == k;
  }

  /** Any fraction is rejected. */
  lemma FactorialRejectsFraction(k: nat)
    ensures Factorial(k as real + 0.5) == Failure(ValueError(FactorialMessage))
  {
    assert (k as real + 0.5).Floor == k;
  }

  /** Consecutive accepted arguments satisfy (k+1)! = (k+1) * k!. */
  lemma FactorialRecurrence(k: nat)
    requires k < MaxLong
    ensures Factorial((k + 1) as real).Success? && Factorial(k as real).Success?
    ensures Factorial((k + 1) as real).value == (k + 1) * Factorial(k as real).value
  {
    FactorialOfNatural(k);
    FactorialOfNatural(k + 1);
  }

  lemma FactorialExample()
    ensures Factorial(5.0) == Success(120)
  {
    FactorialOfNatural(5);
  }

  // ---- Domain guards ----
  // The values are Python's `math` library floats and are not modelled; these
  // are the checks each method makes before calling it.

  /** The guard of `square_root`. */
  function SquareRootGuard(x: real): (r: Result<()>)
    ensures r.Failure? <==> x < 0.0
    ensures r.Failure? ==> r.error == ValueError("Square root of negative number")
  {
    if x < 0.0 then Failure(ValueError("Square root of negative number")) else Success(())
  }

  /** The guard of `nth_root`: only the 0th root is refused.  A negative `x`
      passes the guard; the `math.pow` call after it, which raises for some
      of those, is not modelled. */
  function NthRootGuard(x: real, n: real): (r: Result<()>)
    ensures r.Failure? <==> n == 0.0
    ensures r.Failure? ==> r.error == ValueError("Cannot calculate 0th root")
  {
    if n == 0.0 then Failure(ValueError("Cannot calculate 0th root")) else Success(())
  }

  const LogMessage: string := "Logarithm undefined for non-positive numbers"

  /** The guard shared by `log10` and `ln`: both refuse a non-positive
      argument with the same message. */
  function LogArgumentGuard(x: real): (r: Result<()>)
    ensures r.Failure? <==> x <= 0.0
    ensures r.Failure? ==> r.error == ValueError(LogMessage)
  {
    if x <= 0.0 then Failure(ValueError(LogMessage)) else Success(())
  }

  /** The guard of `log` with an explicit base. */
  function LogGuard(x: real, base: real): (r: Result<()>)
    ensures r.Failure? <==> x <= 0.0 || base <= 0.0 || base == 1.0
    ensures r.Failure? ==> r.error == ValueError("Invalid logarithm parameters")
  {
    if x <= 0.0 || base <= 0.0 || base == 1.0 then Failure(ValueError("Invalid logarithm parameters"))
    else Success(())
  }

  /** `log(x, 10)` accepts exactly what `log10(x)` accepts, and so does
      `log(x, b)` for any valid base `b`. */
  lemma LogWithValidBaseMatchesLog10(x: real, base: real)
    requires base > 0.0 && base != 1.0
    ensures LogGuard(x, base).Success? <==> LogArgumentGuard(x).Success?
  {
  }

  // ---- Memory register and angle mode ----

  datatype AngleMode = Degrees | Radians

  /** The calculator's state: `memory`, `angle_mode` and `last_result`. */
  datatype Calculator = Calculator(memory: real, angleMode: AngleMode, lastResult: real)

  /** A fresh calculator: memory 0, degrees, last result 0. */
  const Initial: Calculator := Calculator(0.0, Degrees, 0.0)

  function MemoryAdd(c: Calculator, v: real): (r: Calculator)
    ensures r.memory - c.memory == v
    ensures r.angleMode == c.angleMode && r.lastResult == c.lastResult
  {
    c.(memory := c.memory + v)
  }

  function MemorySubtract(c: Calculator, v: real): (r: Calculator)
    ensures c.memory - r.memory == v
    ensures r.angleMode == c.angleMode && r.lastResult == c.lastResult
  {
    c.(memory := c.memory - v)
  }

  function MemoryRecall(c: Calculator): real
  {
    c.memory
  }

  function MemoryClear(c: Calculator): (r: Calculator)
    ensures MemoryRecall(r) == 0.0
    ensures r.angleMode == c.angleMode && r.lastResult == c.lastResult
  {
    c.(memory := 0.0)
  }

  function MemoryStore(c: Calculator, v: real): (r: Calculator)
    ensures MemoryRecall(r) == v
    ensures r.angleMode == c.angleMode && r.lastResult == c.lastResult
  {
    c.(memory := v)
  }

  /** Storing then recalling returns the stored value, whatever was there. */
  lemma StoreThenRecall(c: Calculator, v: real)
    ensures MemoryRecall(MemoryStore(c, v)) == v
    ensures MemoryStore(MemoryStore(c, 0.0), v) == MemoryStore(c, v)
  {
  }

  /** Adding and subtracting the same value cancel out. */
  lemma AddThenSubtract(c: Calculator, v: real)
    ensures MemorySubtract(MemoryAdd(c, v), v) == c
    ensures MemoryAdd(MemorySubtract(c, v), v) == c
  {
  }

  /** Clearing is storing zero. */
  lemma ClearIsStoreZero(c: Calculator)
    ensures MemoryClear(c) == MemoryStore(c, 0.0)
  {
  }

  /** Store 42, add 8, subtract 10, clear: 42, 50, 40, 0. */
  lemma MemoryScenario()
    ensures MemoryRecall(MemoryStore(Initial, 42.0)) == 42.0
    ensures MemoryRecall(MemoryAdd(MemoryStore(Initial, 42.0), 8.0)) == 50.0
    ensures MemoryRecall(MemorySubtract(MemoryAdd(MemoryStore(Initial, 42.0), 8.0), 10.0)) == 40.0
    ensures MemoryRecall(MemoryClear(MemorySubtract(MemoryAdd(MemoryStore(Initial, 42.0), 8.0), 10.0))) == 0.0
  {
  }

  /** The ASCII lower case of a character; every other character is its own
      lower case here.  No non-ASCII character lower-cases to a single ASCII
      letter of "deg", "degrees", "rad" or "radians", so for the comparisons
      below this agrees with Python's `str.lower`. */
  function LowerChar(ch: char): char
  {
    if 'A' <= ch <= 'Z' then (ch as int + 32) as char else ch
  }

  function Lower(s: string): (r: string)
    ensures |r| == |s|
    ensures forall i :: 0 <= i < |s| ==> r[i] == LowerChar(s[i])
  {
    if |s| == 0 then "" else [LowerChar(s[0])] + Lower(s[1..])
  }

  lemma LowerIdempotent(s: string)
    ensures Lower(Lower(s)) == Lower(s)
  {
    assert forall i :: 0 <= i < |s| ==> LowerChar(LowerChar(s[i])) == LowerChar(s[i]);
  }

  const AngleMessage: string := "Angle mode must be 'deg' or 'rad'"

  /** `set_angle_mode`: case-insensitive 'deg'/'degrees' or 'rad'/'radians';
      anything else raises ValueError and leaves the calculator unchanged. */
  function SetAngleMode(c: Calculator, mode: string): (r: Result<Calculator>)
    ensures r.Success? <==> Lower(mode) in ["deg", "degrees", "rad", "radians"]
    ensures r.Failure? ==> r.error == ValueError(AngleMessage)
    ensures r.Success? ==>
              (&& r.value.memory == c.memory && r.value.lastResult == c.lastResult
               && (r.value.angleMode == Degrees <==> Lower(mode) in ["deg", "degrees"]))
  {
    var m := Lower(mode);
    if m == "deg" || m == "degrees" then Success(c.(angleMode := Degrees))
    else if m == "rad" || m == "radians" then Success(c.(angleMode := Radians))
    else Failure(ValueError(AngleMessage))
  }

  /** `get_angle_mode`. */
  function GetAngleMode(c: Calculator): (r: string)
    ensures r == "deg" <==> c.angleMode == Degrees
    ensures r in ["deg", "rad"]
  {
    if c.angleMode == Degrees then "deg" else "rad"
  }

  /** The mode name reads back as the mode that was set, in any case. */
  lemma SetThenGetAngleMode(c: Calculator)
    ensures SetAngleMode(c, "DEGREES") == Success(c.(angleMode := Degrees))
    ensures SetAngleMode(c, "Rad") == Success(c.(angleMode := Radians))
    ensures SetAngleMode(c, GetAngleMode(c)) == Success(c)
  {
  }

  /** Setting the mode only looks at the lower-cased name. */
  lemma SetAngleModeIgnoresCase(c: Calculator, mode: string)
    ensures SetAngleMode(c, mode) == SetAngleMode(c, Lower(mode))
  {
    LowerIdempotent(mode);
  }

  /** Setting a mode twice is setting it once. */
  lemma SetAngleModeIdempotent(c: Calculator, mode: string)
    requires SetAngleMode(c, mode).Success?
    ensures SetAngleMode(SetAngleMode(c, mode).value, mode) == SetAngleMode(c, mode)
  {
  }

  /** The angle-mode setter never touches the memory register, and the memory
      operations never touch the angle mode. */
  lemma MemoryAndAngleModeIndependent(c: Calculator, mode: string, v: real)
    requires SetAngleMode(c, mode).Success?
    ensures SetAngleMode(MemoryStore(c, v), mode) == Success(MemoryStore(SetAngleMode(c, mode).value, v))
    ensures SetAngleMode(MemoryAdd(c, v), mode) == Success(MemoryAdd(SetAngleMode(c, mode).value, v))
  {
  }
}

=== FILE: valuation.dfy ===
/** Valuation formulas of `FinancialCalculations` (finance_utils.py):
    discounted-cash-flow valuation with a Gordon-growth terminal value, the
    weighted average cost of capital, CAPM, and single-sum present and
    future value. */
module Valuation {
  import opened Wrappers
  import opened RealMath
  import Cashflows

  /** The `cashflow_breakdown` of `dcf_valuation`: flow `i` discounted over
      `i + 1` periods, i.e. the first projected flow falls one period out. */
  function Breakdown(x: real, flows: seq<real>): (pv: seq<real>)
    requires x != 0.0
    ensures |pv| == |flows|
  {
    if |flows| == 0 then []
    else
      var n := |flows| - 1;
      Breakdown(x, flows[..n]) + [Discount(x, flows[n], n + 1)]
  }

  lemma {:induction false} BreakdownEntry(x: real, flows: seq<real>, i: nat)
    requires x != 0.0 && i < |flows|
    ensures Breakdown(x, flows)[i] == Discount(x, flows[i], i + 1)
    decreases |flows|
  {
    var n := |flows| - 1;
    if i < n {
      BreakdownEntry(x, flows[..n], i);
    }
  }

  lemma {:induction false} DiscountedSumSnoc(x: real, prefix: seq<real>, c: real)
    requires x != 0.0
    ensures Cashflows.DiscountedSum(x, prefix + [c])
         == Cashflows.DiscountedSum(x, prefix) + Discount(x, c, |prefix|)
  {
    var flows := prefix + [c];
    assert flows[..|flows| - 1] == prefix;
  }

  /** The breakdown adds up to the NPV of the flows shifted one period out,
      behind an empty period 0. */
  lemma {:induction false} BreakdownSumIsShiftedNpv(x: real, flows: seq<real>)
    requires x != 0.0
    ensures Sum(Breakdown(x, flows)) == Cashflows.DiscountedSum(x, [0.0] + flows)
    decreases |flows|
  {
    if |flows| == 0 {
      assert [0.0] + flows == [0.0];
      assert [0.0][..0] == [];
      assert Cashflows.DiscountedSum(x, [0.0]) == 0.0 + 0.0 / Pow(x, 0);
    } else {
      var n := |flows| - 1;
      var prefix := flows[..n];
      BreakdownSumIsShiftedNpv(x, prefix);
      var b := Breakdown(x, flows);
      assert b[..n] == Breakdown(x, prefix);
      assert [0.0] + flows == ([0.0] + prefix) + [flows[n]];
      DiscountedSumSnoc(x, [0.0] + prefix, flows[n]);
    }
  }

  /** What `dcf_valuation` returns. */
  datatype DcfResult = DcfResult(
    pvCashflows: real,
    terminalValue: real,
    pvTerminalValue: real,
    enterpriseValue: real,
    breakdown: seq<real>)

  /** The terminal year used: the given one, else the number of flows. */
  function TerminalYear(flows: seq<real>, terminalYear: Option<int>): int
  {
    if terminalYear.Some? then terminalYear.value else |flows|
  }

  /** `dcf_valuation`.  An empty projection raises IndexError at
      `free_cashflows[-1]`; otherwise a rate of −1 raises in the breakdown and
      a rate equal to the growth rate raises in the Gordon-growth quotient. */
  function Dcf(flows: seq<real>, growth: real, rate: real, terminalYear: Option<int>): (r: Result<DcfResult>)
    ensures r.Failure? <==> |flows| == 0 || 1.0 + rate == 0.0 || rate == growth
    ensures |flows| == 0 ==> r == Failure(IndexError)
    ensures |flows| > 0 && r.Failure? ==> r.error == ZeroDivisionError
    ensures r.Success? ==>
              (&& |r.value.breakdown| == |flows|
               && r.value.pvCashflows == Sum(r.value.breakdown)
               && r.value.enterpriseValue == r.value.pvCashflows + r.value.pvTerminalValue)
  {
    if |flows| == 0 then Failure(IndexError)
    else if 1.0 + rate == 0.0 then Failure(ZeroDivisionError)
    else
      var breakdown := Breakdown(1.0 + rate, flows);
      var terminalFlow := flows[|flows| - 1] * (1.0 + growth);
      var terminalValue :- Div(terminalFlow, rate - growth);
      var factor := IntPow(1.0 + rate, TerminalYear(flows, terminalYear)).value;
      var pvTerminalValue := terminalValue / factor;
      Success(DcfResult(Sum(breakdown), terminalValue, pvTerminalValue,
                        Sum(breakdown) + pvTerminalValue, breakdown))
  }

  /** Leaving out the terminal year means the last projected year. */
  lemma DcfDefaultTerminalYear(flows: seq<real>, growth: real, rate: real)
    ensures Dcf(flows, growth, rate, None) == Dcf(flows, growth, rate, Some(|flows|))
  {
  }

  /** Breakdown entry `i` compounded over `i + 1` periods is flow `i`. */
  lemma DcfBreakdownEntry(flows: seq<real>, growth: real, rate: real, terminalYear: Option<int>, i: nat)
    requires Dcf(flows, growth, rate, terminalYear).Success? && i < |flows|
    ensures Dcf(flows, growth, rate, terminalYear).value.breakdown[i] * Pow(1.0 + rate, i + 1) == flows[i]
  {
    BreakdownEntry(1.0 + rate, flows, i);
    DiscountRoundTrip(1.0 + rate, flows[i], i + 1);
  }

  /** The present value of the projection is the NPV of the flows placed in
      periods 1, 2, … behind an empty period 0. */
  lemma DcfPvIsShiftedNpv(flows: seq<real>, growth: real, rate: real, terminalYear: Option<int>)
    requires Dcf(flows, growth, rate, terminalYear).Success?
    ensures Cashflows.Npv(rate, [0.0] + flows).Success?
    ensures Dcf(flows, growth, rate, terminalYear).value.pvCashflows
         == Cashflows.Npv(rate, [0.0] + flows).value
  {
    BreakdownSumIsShiftedNpv(1.0 + rate, flows);
  }

  /** Gordon growth: the terminal value grows the last flow once and
      capitalises it at `rate − growth`. */
  lemma DcfGordonGrowth(flows: seq<real>, growth: real, rate: real, terminalYear: Option<int>)
    requires Dcf(flows, growth, rate, terminalYear).Success?
    ensures Dcf(flows, growth, rate, terminalYear).value.terminalValue * (rate - growth)
         == flows[|flows| - 1] * (1.0 + growth)
  {
  }

  /** Compounding the discounted terminal value over a non-negative terminal
      year gives the terminal value back; a negative terminal year compounds
      the terminal value forward instead. */
  lemma DcfTerminalDiscount(flows: seq<real>, growth: real, rate: real, terminalYear: Option<int>)
    requires Dcf(flows, growth, rate, terminalYear).Success?
    ensures TerminalYear(flows, terminalYear) >= 0 ==>
              Dcf(flows, growth, rate, terminalYear).value.pvTerminalValue
                * Pow(1.0 + rate, TerminalYear(flows, terminalYear))
              == Dcf(flows, growth, rate, terminalYear).value.terminalValue
    ensures TerminalYear(flows, terminalYear) < 0 ==>
              Dcf(flows, growth, rate, terminalYear).value.pvTerminalValue
              == Dcf(flows, growth, rate, terminalYear).value.terminalValue
                 * Pow(1.0 + rate, -TerminalYear(flows, terminalYear))
  {
    var n := TerminalYear(flows, terminalYear);
    var tv := Dcf(flows, growth, rate, terminalYear).value.terminalValue;
    if n >= 0 {
      PowNonzero(1.0 + rate, n);
    } else {
      PowNonzero(1.0 + rate, -n);
      var p := Pow(1.0 + rate, -n);
      assert IntPow(1.0 + rate, n).value == 1.0 / p;
      DivideByReciprocal(tv, p);
    }
  }

  lemma DivideByReciprocal(t: real, p: real)
    requires p != 0.0
    ensures t / (1.0 / p) == t * p
  {
  }

  /** Equity and debt weights of `wacc`. */
  function CapitalWeights(equity: real, debt: real): (r: Result<(real, real)>)
    ensures r.Failure? <==> equity + debt == 0.0
    ensures r.Failure? ==> r.error == ZeroDivisionError
  {
    var total := equity + debt;
    if total == 0.0 then Failure(ZeroDivisionError)
    else Success((equity / total, debt / total))
  }

  /** The two weights split the whole: they add up to one. */
  lemma CapitalWeightsSumToOne(equity: real, debt: real)
    requires equity + debt != 0.0
    ensures CapitalWeights(equity, debt).value.0 + CapitalWeights(equity, debt).value.1 == 1.0
  {
  }

  /** `wacc`: the weighted average of the cost of equity and the after-tax
      cost of debt; a zero total capital raises. */
  function Wacc(costOfEquity: real, costOfDebt: real, taxRate: real, equity: real, debt: real): (r: Result<real>)
    ensures r.Failure? <==> equity + debt == 0.0
    ensures r.Failure? ==> r.error == ZeroDivisionError
  {
    var (equityWeight, debtWeight) :- CapitalWeights(equity, debt);
    Success(equityWeight * costOfEquity + debtWeight * costOfDebt * (1.0 - taxRate))
  }

  /** Scaled back by the total capital, the WACC is the sum of each source's
      capital times its (after-tax) cost. */
  lemma WaccIsWeightedAverage(costOfEquity: real, costOfDebt: real, taxRate: real, equity: real, debt: real)
    requires equity + debt != 0.0
    ensures Wacc(costOfEquity, costOfDebt, taxRate, equity, debt).Success?
    ensures Wacc(costOfEquity, costOfDebt, taxRate, equity, debt).value * (equity + debt)
         == equity * costOfEquity + debt * costOfDebt * (1.0 - taxRate)
  {
    var total := equity + debt;
    var after := costOfDebt * (1.0 - taxRate);
    assert Wacc(costOfEquity, costOfDebt, taxRate, equity, debt).value
        == (equity / total) * costOfEquity + (debt / total) * after;
    ScaleBack(equity, debt, total, costOfEquity, after);
  }

  lemma ScaleBack(a: real, b: real, t: real, u: real, v: real)
    requires t != 0.0
    ensures ((a / t) * u + (b / t) * v) * t == a * u + b * v
  {
    assert (a / t) * t == a;
    assert (b / t) * t == b;
  }

  function Min(a: real, b: real): real { if a <= b then a else b }
  function Max(a: real, b: real): real { if a <= b then b else a }

  /** With non-negative capital the WACC lies between the cost of equity and
      the after-tax cost of debt. */
  lemma WaccIsBetweenCosts(costOfEquity: real, costOfDebt: real, taxRate: real, equity: real, debt: real)
    requires equity >= 0.0 && debt >= 0.0 && equity + debt > 0.0
    ensures Min(costOfEquity, costOfDebt * (1.0 - taxRate))
         <= Wacc(costOfEquity, costOfDebt, taxRate, equity, debt).value
         <= Max(costOfEquity, costOfDebt * (1.0 - taxRate))
  {
    var total := equity + debt;
    var we := equity / total;
    var wd := debt / total;
    assert we + wd == 1.0;
    assert 0.0 <= we && 0.0 <= wd;
    var after := costOfDebt * (1.0 - taxRate);
    assert Wacc(costOfEquity, costOfDebt, taxRate, equity, debt).value == we * costOfEquity + wd * after;
    WeightedAverageBounds(we, wd, costOfEquity, after);
  }

  lemma WeightedAverageBounds(u: real, v: real, a: real, b: real)
    requires 0.0 <= u && 0.0 <= v && u + v == 1.0
    ensures Min(a, b) <= u * a + v * b <= Max(a, b)
  {
    if a <= b {
      assert u * a + v * b == a + v * (b - a);
      MulNonnegative(v, b - a);
      MulNonnegative(u, b - a);
      assert v * (b - a) + u * (b - a) == b - a;
    } else {
      assert u * a + v * b == b + u * (a - b);
      MulNonnegative(u, a - b);
      MulNonnegative(v, a - b);
      assert u * (a - b) + v * (a - b) == a - b;
    }
  }

  /** 80% equity at 12% and 20% debt at 6% with a 25% tax rate: 10.5%. */
  lemma WaccExample()
    ensures Wacc(0.12, 0.06, 0.25, 800.0, 200.0) == Success(0.105)
  {
  }

  /** `capm`: the risk-free rate plus beta times the market risk premium. */
  function Capm(riskFree: real, beta: real, marketReturn: real): (r: real)
    ensures beta == 0.0 ==> r == riskFree
    ensures beta == 1.0 ==> r == marketReturn
  {
    riskFree + beta * (marketReturn - riskFree)
  }

  /** A beta between 0 and 1 gives a return between the risk-free rate and
      the market return. */
  lemma CapmIsBetweenRates(riskFree: real, beta: real, marketReturn: real)
    requires 0.0 <= beta <= 1.0
    ensures Min(riskFree, marketReturn) <= Capm(riskFree, beta, marketReturn) <= Max(riskFree, marketReturn)
  {
    assert Capm(riskFree, beta, marketReturn) == (1.0 - beta) * riskFree + beta * marketReturn;
    WeightedAverageBounds(1.0 - beta, beta, riskFree, marketReturn);
  }

  /** A riskier stock earns more exactly when the market beats the risk-free
      rate. */
  lemma CapmMonotoneInBeta(riskFree: real, marketReturn: real, beta1: real, beta2: real)
    requires marketReturn > riskFree && beta1 < beta2
    ensures Capm(riskFree, beta1, marketReturn) < Capm(riskFree, beta2, marketReturn)
  {
    var premium := marketReturn - riskFree;
    var gain := (beta2 - beta1) * premium;
    MulPositive(beta2 - beta1, premium);
    Distribute(beta2, beta1, premium);
    assert Capm(riskFree, beta2, marketReturn) == Capm(riskFree, beta1, marketReturn) + gain;
  }

  /** The CAPM return is linear in beta: each unit of beta adds one market
      risk premium. */
  lemma CapmIsLinear(riskFree: real, beta1: real, beta2: real, marketReturn: real)
    ensures Capm(riskFree, beta1, marketReturn) - Capm(riskFree, beta2, marketReturn)
         == (beta1 - beta2) * (marketReturn - riskFree)
  {
  }

  lemma Distribute(a: real, b: real, p: real)
    ensures a * p - b * p == (a - b) * p
  {
  }

  /** `present_value`: `fv / (1 + rate) ** periods`.  At a rate of −1 the
      power is zero for positive periods and raises for negative ones. */
  function PresentValue(futureValue: real, rate: real, periods: int): (r: Result<real>)
    ensures r.Failure? <==> 1.0 + rate == 0.0 && periods != 0
    ensures r.Failure? ==> r.error == ZeroDivisionError
    ensures r.Success? && periods >= 0 ==> r.value * Pow(1.0 + rate, periods) == futureValue
    ensures r.Success? && periods < 0 ==> r.value == futureValue * Pow(1.0 + rate, -periods)
  {
    var factor :- IntPow(1.0 + rate, periods);
    Div(futureValue, factor)
  }

  /** `future_value`: `pv * (1 + rate) ** periods`; only a negative power of
      zero raises. */
  function FutureValue(presentValue: real, rate: real, periods: int): (r: Result<real>)
    ensures r.Failure? <==> 1.0 + rate == 0.0 && periods < 0
    ensures r.Failure? ==> r.error == ZeroDivisionError
    ensures r.Success? && periods >= 0 ==> r.value == presentValue * Pow(1.0 + rate, periods)
    ensures r.Success? && periods < 0 ==> r.value * Pow(1.0 + rate, -periods) == presentValue
  {
    var factor :- IntPow(1.0 + rate, periods);
    Success(presentValue * factor)
  }

  /** Compounding a present value recovers the future value. */
  lemma FutureOfPresentValue(futureValue: real, rate: real, periods: int)
    requires 1.0 + rate != 0.0
    ensures FutureValue(PresentValue(futureValue, rate, periods).value, rate, periods) == Success(futureValue)
  {
    var factor := IntPow(1.0 + rate, periods).value;
    var pv := futureValue / factor;
    assert IntPow(1.0 + rate, periods).Success?;
    assert PresentValue(futureValue, rate, periods).Success?;
    assert PresentValue(futureValue, rate, periods).value == pv;
    assert FutureValue(pv, rate, periods).Success?;
    assert FutureValue(pv, rate, periods).value == pv * factor;
    assert pv * factor == futureValue;
  }

  /** Discounting a future value recovers the present value. */
  lemma PresentOfFutureValue(presentValue: real, rate: real, periods: int)
    requires 1.0 + rate != 0.0
    ensures PresentValue(FutureValue(presentValue, rate, periods).value, rate, periods) == Success(presentValue)
  {
    var factor := IntPow(1.0 + rate, periods).value;
    var fv := presentValue * factor;
    assert IntPow(1.0 + rate, periods).Success?;
    assert FutureValue(presentValue, rate, periods).Success?;
    assert FutureValue(presentValue, rate, periods).value == fv;
    assert PresentValue(fv, rate, periods).Success?;
    assert PresentValue(fv, rate, periods).value == fv / factor;
    CancelFactor(presentValue, factor);
  }

  /** `n` empty periods. */
  function Zeros(n: nat): (z: seq<real>)
    ensures |z| == n
    ensures forall i :: 0 <= i < n ==> z[i] == 0.0
  {
    seq(n, _ => 0.0)
  }

  lemma {:induction false} DiscountedSumOfZeros(x: real, n: nat)
    requires x != 0.0
    ensures Cashflows.DiscountedSum(x, Zeros(n)) == 0.0
  {
    if n > 0 {
      DiscountedSumOfZeros(x, n - 1);
      assert Zeros(n) == Zeros(n - 1) + [0.0];
      DiscountedSumSnoc(x, Zeros(n - 1), 0.0);
      PowNonzero(x, n - 1);
      assert Discount(x, 0.0, n - 1) == 0.0 / Pow(x, n - 1) == 0.0;
    }
  }

  /** The present value of a sum due in `n` periods is the NPV of the series
      that is empty for `n` periods and pays that sum at the end; the two
      raise in the same cases. */
  lemma PresentValueIsNpvOfLastFlow(futureValue: real, rate: real, n: nat)
    ensures PresentValue(futureValue, rate, n) == Cashflows.Npv(rate, Zeros(n) + [futureValue])
  {
    var x := 1.0 + rate;
    if x != 0.0 {
      DiscountedSumOfZeros(x, n);
      DiscountedSumSnoc(x, Zeros(n), futureValue);
      PowNonzero(x, n);
    } else if n == 0 {
      assert Zeros(0) + [futureValue] == [futureValue];
      Cashflows.NpvOfSingleFlow(rate, futureValue);
    }
  }

  lemma CancelFactor(a: real, f: real)
    requires f != 0.0
    ensures (a * f) / f == a
  {
  }

  /** 1100 a period from now at 10% is worth 1000 today, and back. */
  lemma PresentValueExample()
    ensures PresentValue(1100.0, 0.1, 1) == Success(1000.0)
    ensures FutureValue(1000.0, 0.1, 1) == Success(1100.0)
  {
    assert Pow(1.1, 1) == 1.1 * Pow(1.1, 0);
  }
}

=== FILE: wrappers.dfy ===
/** Failure-compatible result types shared by every module of the model.

  The calculator reports failures the way Python does: by raising.  Each
  raise becomes a `Failure` carrying the exception class, and a search that
  gives up without raising returns `None`.
 */
module Wrappers {

  /** The conventional optional value (Python's `Optional[...]`). */
  datatype Option<+T> = None | Some(value: T)

  /** The Python exceptions the modelled code can raise. */
  datatype Error =
    | ZeroDivisionError
    | IndexError
    | OverflowError
    | ValueError(message: string)

  /** Either a value or the exception that aborted the computation. */
  datatype Result<+T> = Success(value: T) | Failure(error: Error) {

    predicate IsFailure() {
      Failure?
    }

    function PropagateFailure<U>(): Result<U>
      requires Failure?
    {
      Failure(error)
    }

    function Extract(): T
      requires Success?
    {
      value
    }
  }

  /** Python's true division `a / b`: raises when the divisor is zero. */
  function Div(a: real, b: real): (r: Result<real>)
    ensures r.Success? <==> b != 0.0
    ensures r.Failure? ==> r.error == ZeroDivisionError
  {
    if b == 0.0 then Failure(ZeroDivisionError) else Success(a / b)
  }
}

=== FILE: ytm.dfy ===
/** `yield_to_maturity` of `FinancialCalculations` (finance_utils.py): a
    Newton–Raphson search for the yield at which `bond_price` meets a market
    price, using a central-difference derivative and a hard range guard. */
module YieldToMaturity {
  import opened Wrappers
  import opened RealMath
  import Bonds
  import Newton

  /** `|price(y) − target|` below which a trial yield is accepted. */
  const Tolerance: real := 0.01
  /** Step `h` of the central-difference derivative. */
  const DerivativeStep: real := 0.0001
  /** Absolute derivative below which the search stalls. */
  const FlatSlope: real := 0.0000000001
  /** The search abandons a trial yield outside [LowestYield, HighestYield]. */
  const LowestYield: real := -0.5
  const HighestYield: real := 1.0
  /** The default starting yield. */
  const DefaultGuess: real := 0.05

  /** The bond whose yield is sought, and its market price. */
  datatype Quote = Quote(price: real, face: real, couponRate: real, years: int, paymentsPerYear: int)

  /** `bond_price_function`: the model price at yield `y` minus the market
      price; the exceptions of `bond_price` propagate. */
  function PriceGap(q: Quote, y: real): (r: Result<real>)
    ensures r.Failure? <==> Bonds.BondPrice(q.face, q.couponRate, y, q.years, q.paymentsPerYear).Failure?
    ensures r.Failure? ==> r.error == ZeroDivisionError
    ensures r.Success? ==>
              r.value + q.price == Bonds.BondPrice(q.face, q.couponRate, y, q.years, q.paymentsPerYear).value.price
  {
    var bond :- Bonds.BondPrice(q.face, q.couponRate, y, q.years, q.paymentsPerYear);
    Success(bond.price - q.price)
  }

  function GapOf(q: Quote): real -> Result<real>
  {
    y => PriceGap(q, y)
  }

  /** `bond_price_derivative`: the central difference of `gap` at `y`; the
      upper point is evaluated first. */
  function Slope(gap: real -> Result<real>, y: real): (r: Result<real>)
    ensures r.Failure? <==> gap(y + DerivativeStep).Failure? || gap(y - DerivativeStep).Failure?
    ensures r.Failure? ==>
              r.error == (if gap(y + DerivativeStep).Failure? then gap(y + DerivativeStep).error
                          else gap(y - DerivativeStep).error)
    ensures r.Success? ==>
              r.value * (2.0 * DerivativeStep)
              == gap(y + DerivativeStep).value - gap(y - DerivativeStep).value
  {
    var above :- gap(y + DerivativeStep);
    var below :- gap(y - DerivativeStep);
    Success((above - below) / (2.0 * DerivativeStep))
  }

  /** The trial yield after `y`, given the gap and slope there. */
  function NextYield(y: real, gap: real, slope: real): real
    requires slope != 0.0
  {
    y - gap / slope
  }

  /** One pass of the YTM loop at trial yield `y`. */
  function YtmStep(gap: real -> Result<real>, y: real): (s: Newton.Step)
    ensures s == Newton.Converged <==> gap(y).Success? && Abs(gap(y).value) < Tolerance
    ensures s == Newton.GiveUp <==>
              (&& gap(y).Success? && Abs(gap(y).value) >= Tolerance
               && Slope(gap, y).Success?
               && (|| Abs(Slope(gap, y).value) < FlatSlope
                   || NextYield(y, gap(y).value, Slope(gap, y).value) < LowestYield
                   || NextYield(y, gap(y).value, Slope(gap, y).value) > HighestYield))
    ensures s.Next? ==>
              (&& gap(y).Success? && Slope(gap, y).Success? && Abs(Slope(gap, y).value) >= FlatSlope
               && s.trial == NextYield(y, gap(y).value, Slope(gap, y).value)
               && LowestYield <= s.trial <= HighestYield)
    ensures s.Raise? ==>
              (|| (gap(y).Failure? && s.error == gap(y).error)
               || (Slope(gap, y).Failure? && s.error == Slope(gap, y).error))
  {
    match gap(y)
    case Failure(e) => Newton.Raise(e)
    case Success(difference) =>
      if Abs(difference) < Tolerance then Newton.Converged
      else
        match Slope(gap, y)
        case Failure(e) => Newton.Raise(e)
        case Success(slope) =>
          if Abs(slope) < FlatSlope then Newton.GiveUp
          else
            var next := NextYield(y, difference, slope);
            if next < LowestYield || next > HighestYield then Newton.GiveUp
            else Newton.Next(next)
  }

  function YtmLoop(q: Quote): real -> Newton.Step
  {
    y => YtmStep(GapOf(q), y)
  }

  /** `yield_to_maturity`: at most 100 Newton steps from `guess`; NotFound
      when the slope is flat, a trial leaves the range, or the steps run
      out. */
  function Ytm(q: Quote, guess: real): (r: Newton.Search)
    ensures r.Found? ==> PriceGap(q, r.root).Success? && Abs(PriceGap(q, r.root).value) < Tolerance
  {
    Newton.Find(YtmLoop(q), guess, Newton.MaxIterations)
  }

  /** Every step of the search raises ZeroDivisionError, if anything. */
  lemma YtmStepRaisesDivision(q: Quote, y: real)
    ensures YtmLoop(q)(y).Raise? ==> YtmLoop(q)(y).error == ZeroDivisionError
  {
    var gap := GapOf(q);
    assert gap(y) == PriceGap(q, y);
    assert gap(y + DerivativeStep) == PriceGap(q, y + DerivativeStep);
    assert gap(y - DerivativeStep) == PriceGap(q, y - DerivativeStep);
  }

  /** The only exception the search lets through is ZeroDivisionError. */
  lemma YtmRaisesDivision(q: Quote, guess: real)
    ensures Ytm(q, guess).Raised? ==> Ytm(q, guess).error == ZeroDivisionError
  {
    var r := Ytm(q, guess);
    if r.Raised? {
      var x :| YtmLoop(q)(x) == Newton.Raise(r.error);
      YtmStepRaisesDivision(q, x);
    }
  }

  /** A yield found is the starting guess or lies in the accepted range. */
  lemma YtmFoundInRange(q: Quote, guess: real)
    ensures Ytm(q, guess).Found? ==>
              (|| Ytm(q, guess).root == guess
               || LowestYield <= Ytm(q, guess).root <= HighestYield)
  {
    var inRange := (y: real) => LowestYield <= y <= HighestYield;
    forall x | YtmLoop(q)(x).Next?
      ensures inRange(YtmLoop(q)(x).trial)
    {
    }
    Newton.FoundKeepsInvariant(YtmLoop(q), inRange, guess, Newton.MaxIterations);
  }

  /** An accepted starting guess is returned unchanged. */
  lemma YtmAcceptsCloseGuess(q: Quote, guess: real)
    requires PriceGap(q, guess).Success? && Abs(PriceGap(q, guess).value) < Tolerance
    ensures Ytm(q, guess) == Newton.Found(guess)
  {
    assert YtmLoop(q)(guess) == Newton.Converged;
  }

  /** The search returns `y` exactly when `y` is one of its first hundred
      trial yields and the price there is within 0.01 of the market price. */
  lemma YtmFoundIff(q: Quote, guess: real, y: real)
    ensures Ytm(q, guess) == Newton.Found(y)
        <==> exists k :: 0 <= k < Newton.MaxIterations
                      && Newton.Trial(YtmLoop(q), guess, k) == Some(y)
                      && PriceGap(q, y).Success? && Abs(PriceGap(q, y).value) < Tolerance
  {
    assert forall x :: GapOf(q)(x) == PriceGap(q, x);
    Newton.FoundIffConvergedTrial(YtmLoop(q), guess, Newton.MaxIterations, y);
  }

  /** A trial yield whose Newton update leaves [-0.5, 1.0] ends the search
      with None. */
  lemma YtmGivesUpOutOfRange(q: Quote, guess: real, k: nat, y: real)
    requires k < Newton.MaxIterations
    requires Newton.Trial(YtmLoop(q), guess, k) == Some(y)
    requires PriceGap(q, y).Success? && Abs(PriceGap(q, y).value) >= Tolerance
    requires Slope(GapOf(q), y).Success? && Abs(Slope(GapOf(q), y).value) >= FlatSlope
    requires || NextYield(y, PriceGap(q, y).value, Slope(GapOf(q), y).value) < LowestYield
             || NextYield(y, PriceGap(q, y).value, Slope(GapOf(q), y).value) > HighestYield
    ensures Ytm(q, guess) == Newton.NotFound
  {
    assert GapOf(q)(y) == PriceGap(q, y);
    assert YtmLoop(q)(y) == Newton.GiveUp;
    Newton.GiveUpMeansNotFound(YtmLoop(q), guess, Newton.MaxIterations, k, y);
  }

  /** A trial yield with a flat slope ends the search with None. */
  lemma YtmStallsOnFlatSlope(q: Quote, guess: real, k: nat, y: real)
    requires k < Newton.MaxIterations
    requires Newton.Trial(YtmLoop(q), guess, k) == Some(y)
    requires PriceGap(q, y).Success? && Abs(PriceGap(q, y).value) >= Tolerance
    requires Slope(GapOf(q), y).Success? && Abs(Slope(GapOf(q), y).value) < FlatSlope
    ensures Ytm(q, guess) == Newton.NotFound
  {
    assert GapOf(q)(y) == PriceGap(q, y);
    assert YtmLoop(q)(y) == Newton.GiveUp;
    Newton.GiveUpMeansNotFound(YtmLoop(q), guess, Newton.MaxIterations, k, y);
  }

  /** A search still moving after a hundred updates returns None. */
  lemma YtmExhausted(q: Quote, guess: real)
    requires Newton.Trial(YtmLoop(q), guess, Newton.MaxIterations).Some?
    ensures Ytm(q, guess) == Newton.NotFound
  {
    Newton.ExhaustedMeansNotFound(YtmLoop(q), guess, Newton.MaxIterations);
  }

  /** `yield_to_maturity` called with the default starting guess of 5%. */
  function YtmFromDefaultGuess(q: Quote): (r: Newton.Search)
    ensures r.Found? ==> PriceGap(q, r.root).Success? && Abs(PriceGap(q, r.root).value) < Tolerance
    ensures r.Found? ==> r.root == DefaultGuess || LowestYield <= r.root <= HighestYield
  {
    YtmFoundInRange(q, DefaultGuess);
    Ytm(q, DefaultGuess)
  }
}
